=== FILE: README.md ===
# deno-craigslist in Dafny

A model of the core of deno-craigslist, a client for Craigslist's search and posting pages. It covers four parts:

- `Validation.isEmpty` and `Validation.coalesce` in `src/core.ts`. The option precedence of the request builder (the hostname parts and the category) is resolved through these two, and so are the emptiness tests of `details`.
- The request builder `_getRequestOptions` in `src/client.ts`. It turns a client's options and a call's options into a hostname, a search path with its query parameters, cache headers and pass-through keys.
- The three page extractors in `src/client.ts`:
  - `_getPostings` reads a result page.
  - `_getPostingDetails` reads a posting page.
  - `_getReplyDetails` reads a reply page.
- The decisions taken by the `Client` methods `search`, `list` and `details`:
  - normalising the arguments;
  - rewriting the category in place;
  - validating the posting reference;
  - choosing the reply URL and filling in its host.

Modules, one per file:

- `Wrappers`: Option, Result, and `LastSome`, which gives the value of the last write in a sequence of overwrites.
- `Strings`: JavaScript `trim`, and the small regular-expression shapes the source uses (exact, case-insensitive letters, `\s`). It also has `split`, `join` and decimal rendering.
- `JsValues`: JavaScript values, truthiness, `String(v)` and `Array.prototype.join`'s rendering of one element.
- `Validation`: `isEmpty` and `coalesce`.
- `SearchRequest`: `_getRequestOptions`. It keeps the method's step-by-step updates of the path as methods. Each method is proved against the function that specifies the finished path.
- `Listings`: `_getPostings`, as a loop proved against `Postings`.
- `PostingPage`: `_getPostingDetails`, as two loops proved against the `LastSome` folds and the attribute map.
- `Reply`: `_getReplyDetails`, as nested loops proved against `ReplyOf`.
- `Craigslist`: the `Client` class.

The HTML parser is not modelled. Each extractor instead takes the values its selectors pick out of the markup, as a record:

- a result row's title link, time, tags, hood, price and coordinates;
- a posting page's info entries, thumbnails and attribute groups;
- a reply page's `b` labels with their list items.

The network is modelled as function parameters, from the request to such a record. URL parsing and `encodeURIComponent` are modelled the same way.

## How the code behaves where its description differs or is silent

- The hostname is `[city, baseHost].join('.')`. It always contains a dot, so it is never empty. As a result, the "unable to set hostname" error in `search` (src/client.ts:605-607) can never be raised. `Craigslist.Client.FetchPostings` proves that the branch is dead.
- The `category` and `nocache` options given to the constructor are never read. Only the per-call options are consulted (src/client.ts:337, 517).
- In the pass-through test `!QUERY_KEYS.indexOf(key)`, only the key at index 0 passes, `bundleDuplicates`. It then passes only when neither the request built so far nor the default request options have a value for it (src/client.ts:319-322).
- A posting's category is the second non-empty segment of the link split on `/`. For a relative link `/area/cat/…` that is the category. For an absolute link `https://host/…` it is the host (src/client.ts:186-204).
- A post-id info entry sets the id to the text between the first and the second `:`, trimmed (src/client.ts:104).
- `search` with a non-empty string as options and a non-empty query throws a TypeError: the string stays the options, and the category assignment fails on it. An empty string with a query becomes `{}` (src/client.ts:590-598).
- `details` with an object whose non-empty `url` is not a string fails. The source first hands that value to `urlParse` and `fetch` (src/client.ts:552-557), and the string method at src/client.ts:91 cannot run on it. Which error ends the call depends on `urlParse`.
- When `details` reads a reply page, its result spreads the posting details and then sets `replyUrl` to the parsed reply URL object, host filled in. The page's reply link text is overwritten (src/client.ts:567, 578-582).

## Model

| member | source | states |
|---|---|---|
| Validation.IsEmpty | src/core.ts:10-21 | `isEmpty`: `null`, or one of the five tests in their source order. Its meaning type by type is stated by `IsEmptyCases`. |
| Validation.IsEmptyCases | src/core.ts:10-21 | `isEmpty` holds exactly for null, undefined, `''`, NaN, `[]` and a plain object without keys. Booleans and all integers, `0` and `false` included, are never empty. |
| Validation.AnyTrueIff | src/core.ts:11-20 | `.some` over the list of tests holds iff one of the tests holds. |
| Validation.NonEmpty | src/core.ts:3-7 | The filter keeps only non-empty arguments and never more than were given. |
| Validation.Coalesce | src/core.ts:2-8 | A result other than `undefined` is never empty. |
| Validation.CoalesceFirstNonEmpty | src/core.ts:2-8 | The first non-empty argument is the result, whatever follows it. |
| Validation.CoalesceAllEmpty | src/core.ts:2-8 | With every argument empty the result is `undefined`. |
| Validation.CoalesceEmptyIff | src/core.ts:2-8 | The result is empty iff every argument is empty. |
| Validation.CoalescePrecedence | src/core.ts:2-8 | For three arguments: a non-empty per-call value beats the client's value, which beats the default. Otherwise the result is `undefined`. The source uses this three-level order for the hostname parts only (src/client.ts:306, 308-311). |
| JsValues.JoinText | src/client.ts:305-312 | `join` renders undefined and null as `''` and a string as itself. |
| SearchRequest.IndexOfKey | src/client.ts:319 | `indexOf` gives the first index holding the key, or -1 when the key is absent. |
| SearchRequest.PassThroughGuard | src/client.ts:319 | `!QUERY_KEYS.indexOf(key)` holds for `bundleDuplicates` and for no other key. |
| SearchRequest.PassThrough | src/client.ts:314-327 | The keys the option loop copies onto the request: `bundleDuplicates` when the options hold it. `PreserveOptionKeys` proves that the loop yields exactly this. |
| SearchRequest.Hostname | src/client.ts:305-312 | `[coalesced city, coalesced base host].join('.')`. Its shape is stated by `HostnameNeverEmpty`, `CityPrecedence` and `BaseHostPrecedence`. |
| SearchRequest.HostnameNeverEmpty | src/client.ts:305-312 | The hostname is the coalesced city, a dot, then the coalesced base host. It is never empty. |
| SearchRequest.CityPrecedence | src/client.ts:306 | The city part is the per-call city, else the client's, else `''`. |
| SearchRequest.BaseHostPrecedence | src/client.ts:308-311 | The base host is the per-call base host, else the client's, else `craigslist.org`. |
| SearchRequest.HostnameWithoutCity | src/client.ts:305-312 | With no city and no base host anywhere, the hostname is `.craigslist.org`. |
| SearchRequest.Fragment | src/client.ts:350-514 | The text one guarded parameter appends. Its guard is stated by `FragmentIff` and `FragmentAbsent`. |
| SearchRequest.ParamsFragments | src/client.ts:350-514 | The fragments of the 22 parameters in the order the source appends them, from `bundleDuplicates` to `offset`. |
| SearchRequest.SearchPath | src/client.ts:329-514 | The finished path: the default path, the category and the sort parameter, then the query, then the parameters. `BuildPath` proves the step-by-step updates equal to it. |
| SearchRequest.NoCacheHeaders | src/client.ts:516-524 | `Cache-Control` and `Pragma` set to `no-cache` exactly when the per-call `nocache` is truthy, and no headers otherwise. |
| SearchRequest.FragmentAbsent | src/client.ts:350-514 | A search parameter whose option keys are all absent adds nothing to the path. |
| SearchRequest.FragmentIff | src/client.ts:350-514 | A parameter adds a fragment iff its guard holds: truthiness for flags and offset, non-emptiness for valued parameters. A fragment that is added starts with the parameter's query key. |
| SearchRequest.HasPicOnce | src/client.ts:357-362 | `hasImage` and `hasPic` together add `&hasPic=1` once, when either is truthy. |
| SearchRequest.ValuedInteger | src/client.ts:364-370 | An integer value, `0` included, adds its key and its decimal text. |
| Strings.DecimalRoundTrip | src/client.ts:364-370 | The decimal text a non-negative integer is rendered as reads back as that integer. |
| SearchRequest.DefaultPathOnly | src/client.ts:329-348 | With no options and no query, the path is `/search/sss?sort=rel`. |
| SearchRequest.NoParamsFragments | src/client.ts:350-514 | Without options, no search parameter adds anything to the path. |
| SearchRequest.GetRequestOptions | src/client.ts:301-528 | The request gets the coalesced hostname, the full search path, `secure`, cache headers only when `nocache` is truthy, and the pass-through keys. |
| SearchRequest.BuildPath | src/client.ts:329-514 | The path steps in sequence produce the specified search path. |
| SearchRequest.SetupCategory | src/client.ts:329-340 | The default path, then the coalesced category, then `?sort=rel`. |
| SearchRequest.AppendQuery | src/client.ts:342-348 | The query step appends `&query=` and the encoded query, and only when the query is not empty. |
| SearchRequest.PreserveOptionKeys | src/client.ts:314-327 | The loop over the option keys copies exactly the keys that pass the guard. Nothing else in the request changes. |
| SearchRequest.AppendSearchParams | src/client.ts:350-514 | The parameter steps append every parameter's fragment, in source order. |
| SearchRequest.AppendParam | src/client.ts:350-514 | One parameter step appends that parameter's fragment. |
| Listings.NonEmptyTerms | src/client.ts:188 | The filter keeps only non-empty segments. |
| Listings.CutAtHtml | src/client.ts:189 | `split(RE_HTML)[0]` is the prefix before the first `.htm`, matched in any letter case. The prefix holds no match. |
| Listings.Category | src/client.ts:186-204 | `details[1]` of the cleaned link segments, or absent when there are fewer than two. Stated by `CategoryOfRelativeHref` and `CategoryOfAbsoluteHref`. |
| Listings.CategoryOfRelativeHref | src/client.ts:186-204 | The category of `/area/cat/…` is `cat`. |
| Listings.CategoryOfAbsoluteHref | src/client.ts:186-204 | The category of `scheme://host/…` is the host. |
| Strings.TrimPadded | src/client.ts:104 | `trim` removes exactly the white space around a trimmed core: white space, then a trimmed text, then white space trims to that text. |
| Listings.SanitizePrice | src/client.ts:221-225 | A sanitised price is always trimmed. |
| Listings.SanitizePriceLeadingEntity | src/client.ts:224-225 | A leading `&#x0024;` is removed, then the rest is trimmed. |
| Listings.SanitizePriceNoEntity | src/client.ts:224-225 | Without a leading entity, the price is only trimmed. |
| Listings.HasMapTagIff | src/client.ts:210-213 | `hasPic` holds iff the tags text contains "map" in any letter case. |
| Listings.DetailsUrl | src/client.ts:191-197 | The details URL keeps the parsed link's path. It takes the page's hostname when the link has none, and the protocol its security calls for: `https:` when secure, `http:` otherwise. |
| Listings.RowPosting | src/client.ts:199-232 | The posting a row with a title link yields. Its fields are stated by `RowPostingFields`. |
| Listings.RowPostingFields | src/client.ts:199-232 | Every field of a posting follows from its row: the category of its link; coordinates only when both are present; the date, location, pid and title as the row's trimmed texts (`''` when absent); the sanitised price; the map tag; and the details URL of its link, on the request's protocol. |
| Listings.Postings | src/client.ts:175-237 | The postings of the rows in order, one per row with a title link. Stated by `PostingsAppend`, `SkippedRow`, `AllRowsLinked` and `NoRowsLinked`, and computed by `GetPostings`. |
| Listings.PostingsAppend | src/client.ts:175-235 | The postings of two runs of rows are the postings of each run, concatenated. |
| Listings.PostingsSnoc | src/client.ts:177-235 | One more row adds that row's posting, or nothing. |
| Listings.SkippedRow | src/client.ts:179-185 | A row without a title link is skipped and changes nothing. |
| Listings.AllRowsLinked | src/client.ts:175-237 | When every row has a title link, there is one posting per row, in row order. |
| Listings.NoRowsLinked | src/client.ts:179-185 | When no row has a title link, there are no postings. |
| Listings.GetPostings | src/client.ts:170-238 | The loop over the rows produces the specified postings. |
| PostingPage.SearchFrom | src/client.ts:91 | The leftmost position at or after `p` where a digit run followed by `.html` starts, or -1. |
| PostingPage.UrlPid | src/client.ts:90-92 | The id cut from the URL: from the `/[0-9]*\.html/` match on, without the first `.html`. Stated by `UrlPidOfPostingUrl` and `UrlPidWithoutHtml`. |
| PostingPage.PidSearchOfPostingUrl | src/client.ts:91 | In `prefix + digits + ".html" + rest`, the search finds the start of the digits. |
| PostingPage.RemoveHtmlAfterDigits | src/client.ts:92 | Replacing the first `.html` after the digits leaves the digits plus the rest. |
| PostingPage.UrlPidOfPostingUrl | src/client.ts:90-92 | The id taken from a posting URL is its digits followed by whatever follows `.html`. |
| PostingPage.UrlPidWithoutHtml | src/client.ts:90-92 | A URL without `.html` is its own id (`substring(-1)` keeps the whole string). |
| Wrappers.LastSomeIsLastMatch | src/client.ts:99-120 | Of the entries that write a field, the last one's value is the field's value. |
| Wrappers.LastSomeNoMatch | src/client.ts:99-120 | When no entry writes a field, it stays unset. |
| Wrappers.LastSomeWitness | src/client.ts:99-120 | A field that is set holds the value of some entry that wrote it, and no later entry wrote it. |
| PostingPage.InfoPid | src/client.ts:103-106 | An entry sets the id iff its text matches `post\sid` in any case. The id it sets is trimmed. Its value is stated by `InfoPidOfLabel` and `InfoPidWithoutColon`. |
| PostingPage.InfoPidOfLabel | src/client.ts:103-106 | A post-id entry `label:value` or `label:value:…` sets the id to the trimmed value between the first and second `:`. |
| PostingPage.InfoPidWithoutColon | src/client.ts:103-106 | A post-id entry without any `:` sets the id `''`. |
| PostingPage.InfoPosted | src/client.ts:108-113 | Only an entry with a non-empty datetime sets the posted date, and it sets that datetime. |
| PostingPage.InfoUpdated | src/client.ts:115-119 | Only an entry with a non-empty datetime sets the updated date, and only when it sets neither the id nor the posted date. |
| PostingPage.InfoSetsOneField | src/client.ts:99-120 | An info entry sets at most one of id, posted and updated. |
| PostingPage.Underscored | src/client.ts:135 | Every white space character becomes `_`. All other characters stay. |
| PostingPage.AttrKey | src/client.ts:134-135 | An attribute key never contains white space. |
| PostingPage.AttrValue | src/client.ts:134-135 | `attribute[1]` of the span text split on `:\s`, absent when there is no separator. Stated by `AttrOfKeyValue` and `AttrWithoutSeparator`. |
| PostingPage.AttrOfKeyValue | src/client.ts:134-135 | A span `key: value`, whose key and value hold no `:\s`, gives the underscored key with `value`. |
| PostingPage.AttrWithoutSeparator | src/client.ts:134-135 | A span without `:\s` gives its underscored text with an undefined value. |
| PostingPage.Attributes | src/client.ts:128-137 | The map the spans of the last attribute group write, one after the other. Stated by `AttributesLastWins`. |
| PostingPage.AttributesLastWins | src/client.ts:128-137 | A key is present iff some span writes it, and its value is the last span's. |
| PostingPage.PostingDetailsOf | src/client.ts:80-159 | The record `_getPostingDetails` returns for a URL and a page. `GetPostingDetails` proves the extractor's loops equal to it, and `Craigslist.Client.Details` returns it. |
| PostingPage.GetPostingDetails | src/client.ts:80-159 | The details hold these fields: the last id entry's id, or else the id from the URL; the last posted and updated dates; the trimmed thumbnail links; the attributes of the last group; the trimmed title, description and reply link; the URL; and the map link. |
| Reply.PhoneNumberOf | src/client.ts:271 | The phone number is the suffix from the first `(`, or the whole value when it has none. |
| Reply.ItemPhone | src/client.ts:269-273 | The phone number an item writes: only an item with the telephone sign, from its first `(` on. Stated through `PhoneNumberOf` and `ReplyOfLaterPhone`. |
| Reply.ItemEmail | src/client.ts:270-278 | An item that writes the email never writes the phone number, and the email is the whole item. |
| Reply.ContactNamesSnoc | src/client.ts:252-262 | One more label adds its trimmed items to the contact names only when it is a contact label. |
| Reply.CallValuesSnoc | src/client.ts:252-283 | One more label adds its trimmed items to the inspected values only when it is a call label. |
| Reply.ReplyOf | src/client.ts:246-287 | The reply details the labels leave: the last email, the last phone number and the last contact name written. `GetReplyDetails` proves the nested loops equal to it. |
| Reply.ReplyOfUnrelatedLabels | src/client.ts:252-286 | Labels that are neither contact nor call labels yield no email, phone number or contact name. |
| Reply.ReplyOfLaterContact | src/client.ts:256-262 | A later contact label with items sets the contact name to its last item. Nothing else changes. |
| Reply.LastContactOfLabel | src/client.ts:256-259 | The last item under a later contact label is the last contact name written. |
| Reply.ReplyOfLaterUnrelated | src/client.ts:252-283 | A later unrelated label changes nothing. |
| Reply.ReplyOfLaterPhone | src/client.ts:265-273 | A later call label whose last item has the telephone sign sets the phone number from that item. The contact name stays. |
| Reply.LastPhoneOfCallLabel | src/client.ts:265-273 | A phone number in the last item under a later call label is the last phone number written. |
| Reply.ReadContactItems | src/client.ts:257-259 | The loop over a contact label's items leaves the last trimmed item as the contact name. |
| Reply.ReadCallItems | src/client.ts:266-279 | The loop over a call label's items leaves the last phone value and the last email value. |
| Reply.GetReplyDetails | src/client.ts:246-287 | The loop over the labels produces the specified reply details. |
| Craigslist.EffectiveQuery | src/client.ts:590-593 | A non-empty query is always the query used. |
| Craigslist.CategoryLookup | src/client.ts:598 | The category lookup yields a string or `undefined`. |
| Craigslist.WithCategory | src/client.ts:598 | The rewrite adds `category` and leaves every other option as it was. |
| Craigslist.SearchUrl | src/client.ts:609-610 | `https://` + hostname + path, since requests are always secure. `FetchPostings` proves that the URL it builds equals it. |
| Craigslist.SearchCategory | src/client.ts:598 | The path's category is the mapped name of the caller's category, or of `all`, when the map knows it and the name is non-empty. Otherwise it is `sss`. |
| Craigslist.TextOptionsAreQuery | src/client.ts:590-593 | A string given without a query is accepted and becomes the query. |
| Craigslist.PostingUrlOf | src/client.ts:543-551 | The validation of `details`: the URL, or the error raised. Stated by `PostingUrlAccepted` and `PostingUrlRejected`. |
| Craigslist.PostingUrlAccepted | src/client.ts:543-551 | A posting is accepted iff it is a non-empty URL string, or an object whose `url` is one. The URL is that string. |
| Craigslist.PostingUrlRejected | src/client.ts:543-549 | An absent posting, `''`, and an object without `url` are all rejected with "posting URL is required". |
| Craigslist.ReplyTarget | src/client.ts:562-565 | The reply link on the page wins over the client's. There is no reply fetch iff neither is non-empty. |
| Craigslist.ReplyRequest | src/client.ts:567-572 | A reply URL without a host takes the posting request's host, and the protocol its security calls for: `https:` when secure, `http:` otherwise. A URL with a host stays as it is. |
| Craigslist.Client.constructor | src/client.ts:537-540 | The client keeps its options. Its reply URL is the options' `replyUrl` when that is a string. |
| Craigslist.Client.Search | src/client.ts:589-621 | The search fails iff a non-empty string is given with a non-empty query. The caller's options object gets the rewritten category. The result is the postings of the rows fetched from the built URL with the built headers. |
| Craigslist.Client.FetchPostings | src/client.ts:600-620 | The request is built, the hostname check never fires, and the postings are those of the fetched rows. |
| Craigslist.Client.List | src/client.ts:585-587 | A search without a query. It never fails. |
| Craigslist.Client.Details | src/client.ts:542-583 | It fails iff validation fails, with the validation's message. Otherwise it returns the full `_getPostingDetails` record of the fetched page (`PostingDetailsOf`: every field, not only the URL and id). When a reply URL is chosen, it also returns the reply request, with the host filled in, and the reply details read from it. The source puts that request in the result's `replyUrl` field, in place of the page's link. |

## Left out

- `Craigslist.Client.Details`: when a reply URL is chosen, the source's result is the details record with its `replyUrl` overwritten by the parsed, host-filled reply URL object (src/client.ts:567, 578-582). The model returns that URL separately as `replyRequest` and leaves `details.replyUrl` as the page's link text.
- `Craigslist.Client.Details`: a non-empty `url` that is not a string fails at once with one fixed message. The source first calls `urlParse` and `fetch` on it (src/client.ts:552-557), so neither that request nor the error it actually ends with is modelled; `urlParse` is not part of this model.
- The network (`fetch`), the Cheerio HTML parser and URL parsing are not modelled. They are replaced by function parameters and by records of the values the selectors pick. Serialising a URL with `toString()` is not modelled: the model keeps a URL as protocol, hostname and the rest.
- `encodeURIComponent` is a parameter.
- `CATEGORY_MAP` is a parameter: a map from names to Craigslist category codes. Keys inherited from `Object.prototype` are not modelled.
- `new Date(...)` is not modelled. Dates are kept as their raw `datetime` strings.
- Numbers are integers or NaN. Fractions, infinities and integers whose decimal form JavaScript writes in exponent notation are not modelled.
- The `debug` logging, the `console.warn` for rows without a link, and the deep copy of the default request options are not modelled. The copy is rebuilt as a fresh value.
- The files `example.ts`, `run.ts` and `types.ts` are not part of this model.
- `Validation.promiseOrCallback` (src/core.ts:23-31) is not modelled: it only chains a promise to a callback, and promises are outside this model.
- `Craigslist.Client.constructor`: constructing with `null` or `undefined` throws at `options.replyUrl` in the source. The model takes an options map, and treats a `replyUrl` that is not a string as absent.
- `Craigslist.Client.Search`: arguments of other JavaScript types (numbers, arrays) are not modelled. The model has only absent options, a string, or an options object.
- `PostingPage.AttributesLastWins`: an attribute key `__proto__` would set the prototype, not a key. The model treats it as an ordinary key.
- `Validation.IsEmptyCases`: objects with no `toString`, or with a `toString` of their own, are modelled only through the `text` their `toString` returns.

=== FILE: client.dfy ===
/** The `Client` class (src/client.ts): `search` and `list` normalise their
    arguments, rewrite the caller's category through the category map, build
    the request and extract the postings; `details` validates the posting
    reference, extracts the posting details and, when a reply URL is known,
    the reply details. The network is replaced by functions from the request
    to the selected page content. */
module Craigslist {
  import opened Wrappers
  import opened Strings
  import opened JsValues
  import opened Validation
  import opened SearchRequest
  import opened Listings
  import opened PostingPage
  import opened Reply

  const PostingUrlRequired: string := "posting URL is required"
  /** The TypeError of assigning a property to a string in strict code. Only
      the message's prefix is modelled; the engine appends the string. */
  const CategoryOnString: string := "Cannot create property 'category' on string"
  /** The failure of a posting URL that is not a string. The source parses
      and fetches it first; the error it ends with depends on `urlParse` and
      on the fetch, and this message is the one a string method would raise. */
  const UrlNotAString: string := "postingUrl.search is not a function"

  /** The first argument of `search`: absent (`undefined` or `null`), a
      string, or an options object the caller keeps a reference to. */
  datatype SearchArg = NoOptions | TextOptions(text: string) | ObjectOptions(obj: Options)

  /** The argument of `details`: absent, a URL string, or an object whose
      `url` property holds the URL. */
  datatype PostingArg = NoPosting | PostingLink(link: string) | PostingRecord(props: map<string, JsValue>)

  /** What `details` returns: the posting details, and once a reply URL is
      known, the reply details and the URL they were read from. */
  datatype FullDetails = FullDetails(
    details: PostingDetails,
    replyDetails: Option<ReplyDetails>,
    replyRequest: Option<Url>)

  // ---------------------------------------------------------------- search

  /** A string given as options while a query is also given: the string
      stays the options (a non-empty string survives `options || {}`) and the
      category assignment throws. */
  predicate RejectsTextOptions(arg: SearchArg, query: JsValue) {
    arg.TextOptions? && !IsEmpty(query) && arg.text != ""
  }

  /** The query a search uses: a string given as options becomes the query
      when no query is given. */
  function EffectiveQuery(arg: SearchArg, query: JsValue): (q: JsValue)
    ensures !IsEmpty(query) ==> q == query
  {
    if IsEmpty(query) && arg.TextOptions? then Str(arg.text) else query
  }

  /** `CATEGORY_MAP[category ?? 'all']`: the category name looked up as a
      property key; an unknown name gives `undefined`. */
  function CategoryLookup(categoryMap: map<string, string>, category: JsValue): (r: JsValue)
    ensures r.Undefined? || r.Str?
  {
    var name := if category.Undefined? || category.Null? then "all" else ToJsString(category);
    if name in categoryMap then Str(categoryMap[name]) else Undefined
  }

  /** The options after `search` rewrote their category. */
  function WithCategory(props: map<string, JsValue>, categoryMap: map<string, string>): (r: map<string, JsValue>)
    ensures r.Keys == props.Keys + {"category"}
    ensures forall k :: k in props && k != "category" ==> r[k] == props[k]
  {
    props["category" := CategoryLookup(categoryMap, Get(props, "category"))]
  }

  /** The URL a search fetches. Requests are always secure, so its
      protocol is "https". */
  function SearchUrl(clientOptions: map<string, JsValue>, props: map<string, JsValue>, query: JsValue,
                     encode: string -> string): string
  {
    "https" + "://" + Hostname(clientOptions, props) + SearchPath(props, query, encode)
  }

  /** The category path segment a search ends up with: the mapped name of
      the caller's category (of "all" when there is none) when the map knows
      it and the name is not empty, "sss" otherwise. */
  lemma SearchCategory(props: map<string, JsValue>, categoryMap: map<string, string>)
    ensures
      var category := Get(props, "category");
      var name := if category.Undefined? || category.Null? then "all" else ToJsString(category);
      PathPrefix(WithCategory(props, categoryMap)) ==
        DefaultPath + (if name in categoryMap && categoryMap[name] != "" then categoryMap[name] else DefaultCategory)
        + DefaultQuerystring
  {
    var looked := CategoryLookup(categoryMap, Get(props, "category"));
    assert Get(WithCategory(props, categoryMap), "category") == looked;
    IsEmptyCases(looked);
    IsEmptyCases(Str(DefaultCategory));
    if IsEmpty(looked) {
      CoalesceFirstNonEmpty([looked, Str(DefaultCategory)], 1);
    } else {
      CoalesceFirstNonEmpty([looked, Str(DefaultCategory)], 0);
    }
  }

  /** A string given alone is the query of a search without options. */
  lemma TextOptionsAreQuery(text: string, query: JsValue)
    requires IsEmpty(query)
    ensures !RejectsTextOptions(TextOptions(text), query)
    ensures EffectiveQuery(TextOptions(text), query) == Str(text)
  {
  }

  // ---------------------------------------------------------------- details

  /** `isEmpty(posting)`, the posting seen as a JavaScript value. */
  predicate PostingIsEmpty(posting: PostingArg) {
    match posting
    case NoPosting => true
    case PostingLink(s) => IsEmpty(Str(s))
    case PostingRecord(props) => IsEmpty(Obj(props.Keys, PlainObjectText))
  }

  /** The validation of `details`: the URL the posting reference names, or
      the error it raises. */
  function PostingUrlOf(posting: PostingArg): Result<string, string> {
    if PostingIsEmpty(posting) then Failure(PostingUrlRequired)
    else if posting.PostingRecord? && IsEmpty(Get(posting.props, "url")) then Failure(PostingUrlRequired)
    else if posting.PostingLink? then Success(posting.link)
    else
      var url := Get(posting.props, "url");
      if url.Str? then Success(url.s) else Failure(UrlNotAString)
  }

  /** A posting reference is accepted exactly when it is a non-empty URL
      string or an object whose `url` is one, and the URL is that string. */
  lemma PostingUrlAccepted(posting: PostingArg, url: string)
    ensures PostingUrlOf(posting) == Success(url) <==>
      url != "" &&
      (posting == PostingLink(url) || (posting.PostingRecord? && Get(posting.props, "url") == Str(url)))
  {
    IsEmptyCases(Str(url));
    match posting
    case NoPosting =>
    case PostingLink(s) =>
      IsEmptyCases(Str(s));
    case PostingRecord(props) =>
      var v := Get(props, "url");
      IsEmptyCases(v);
      IsEmptyCases(Obj(props.Keys, PlainObjectText));
      if v != Undefined {
        assert "url" in props.Keys;
      }
  }

  /** An absent posting, an empty URL and an object without a URL are all
      rejected with the same message. */
  lemma PostingUrlRejected(posting: PostingArg)
    requires posting == NoPosting || posting == PostingLink("") ||
             (posting.PostingRecord? && "url" !in posting.props)
    ensures PostingUrlOf(posting) == Failure(PostingUrlRequired)
  {
    if posting.PostingRecord? {
      IsEmptyCases(Obj(posting.props.Keys, PlainObjectText));
    }
  }

  /** `/https/i.test(protocol)`. */
  predicate IsSecure(u: Url) {
    Contains(u.protocol, Caseless("https"))
  }

  /** The reply URL `details` follows: the page's reply link when it is not
      empty, otherwise the client's; none when neither is a non-empty
      string. */
  function ReplyTarget(fromPage: string, fromClient: Option<string>): (r: Option<string>)
    ensures r.Some? ==> r.value != "" && (r.value == fromPage || (fromPage == "" && fromClient == r))
    ensures r.None? <==> fromPage == "" && (fromClient.None? || fromClient.value == "")
  {
    var chosen := if fromPage != "" then Some(fromPage) else fromClient;
    if chosen.None? || chosen.value == "" then None else chosen
  }

  /** A reply URL without a host takes the host of the posting request and
      the protocol its security calls for; one with a host is used as is. */
  function ReplyRequest(reply: Url, request: Url, secure: bool): (r: Url)
    ensures r.rest == reply.rest
    ensures reply.hostname != "" ==> r == reply
    ensures reply.hostname == "" ==>
      r.hostname == request.hostname && r.protocol == Protocol(secure)
  {
    if reply.hostname == "" then reply.(hostname := request.hostname, protocol := Protocol(secure))
    else reply
  }

  // ---------------------------------------------------------------- client

  /** A client: the options given to the constructor and the fallback reply
      URL among them. Both are set once. */
  class Client {
    const options: map<string, JsValue>
    const replyUrl: Option<string>

    constructor (options: map<string, JsValue>)
      ensures this.options == options
      ensures this.replyUrl == (if Get(options, "replyUrl").Str? then Some(Get(options, "replyUrl").s) else None)
    {
      this.options := options;
      var v := Get(options, "replyUrl");
      this.replyUrl := if v.Str? then Some(v.s) else None;
    }

    /** `search`: the argument normalisation, the in-place category rewrite,
        then the request and its postings. */
    method Search(arg: SearchArg, query: JsValue, categoryMap: map<string, string>, encode: string -> string,
                  fetchRows: (string, Option<map<string, string>>) -> seq<ResultRow>, parse: string -> Url)
      returns (r: Result<seq<Posting>, string>)
      modifies if arg.ObjectOptions? then {arg.obj} else {}
      ensures r.Failure? <==> RejectsTextOptions(arg, query)
      ensures arg.ObjectOptions? ==> arg.obj.props == WithCategory(old(arg.obj.props), categoryMap)
      ensures r.Success? ==>
        var props := if arg.ObjectOptions? then arg.obj.props else WithCategory(map[], categoryMap);
        r.value == Postings(Hostname(options, props), true,
                            fetchRows(SearchUrl(options, props, EffectiveQuery(arg, query), encode),
                                      NoCacheHeaders(props)),
                            parse)
    {
      var q := query;
      var obj: Options;
      if IsEmpty(query) && arg.TextOptions? {
        q := Str(arg.text);
        obj := new Options(map[]);
      } else if arg.ObjectOptions? {
        obj := arg.obj;
      } else if arg.TextOptions? && arg.text != "" {
        return Failure(CategoryOnString);
      } else {
        obj := new Options(map[]);
      }
      obj.props := obj.props["category" := CategoryLookup(categoryMap, Get(obj.props, "category"))];
      assert obj.props == if arg.ObjectOptions? then arg.obj.props else WithCategory(map[], categoryMap);
      assert q == EffectiveQuery(arg, query);
      var postings := FetchPostings(obj, q, encode, fetchRows, parse);
      r := Success(postings);
    }

    /** The part of `search` after the category rewrite: the request, the
        hostname check (which cannot fail, as the hostname always holds a
        dot), the URL and the postings of the fetched result rows. */
    method FetchPostings(obj: Options, query: JsValue, encode: string -> string,
                         fetchRows: (string, Option<map<string, string>>) -> seq<ResultRow>, parse: string -> Url)
      returns (postings: seq<Posting>)
      ensures postings == Postings(Hostname(options, obj.props), true,
                                   fetchRows(SearchUrl(options, obj.props, query, encode), NoCacheHeaders(obj.props)),
                                   parse)
    {
      var request := GetRequestOptions(options, obj, query, encode);
      if IsEmpty(Str(request.hostname)) {
        HostnameNeverEmpty(options, obj.props);
        assert false;
      }

      var protocol := if request.secure then "https" else "http";
      var url := protocol + "://" + request.hostname + request.path;
      assert url == SearchUrl(options, obj.props, query, encode);
      var rows := fetchRows(url, request.headers);
      postings := GetPostings(request.hostname, request.secure, rows, parse);
    }

    /** `list`: a search without a query. It never fails: a string given as
        options becomes the query. */
    method List(arg: SearchArg, categoryMap: map<string, string>, encode: string -> string,
                fetchRows: (string, Option<map<string, string>>) -> seq<ResultRow>, parse: string -> Url)
      returns (r: Result<seq<Posting>, string>)
      modifies if arg.ObjectOptions? then {arg.obj} else {}
      ensures r.Success?
      ensures arg.ObjectOptions? ==> arg.obj.props == WithCategory(old(arg.obj.props), categoryMap)
      ensures
        var props := if arg.ObjectOptions? then arg.obj.props else WithCategory(map[], categoryMap);
        r.value == Postings(Hostname(options, props), true,
                            fetchRows(SearchUrl(options, props, EffectiveQuery(arg, Undefined), encode),
                                      NoCacheHeaders(props)),
                            parse)
    {
      r := Search(arg, Undefined, categoryMap, encode, fetchRows, parse);
    }

    /** `details`: validation, the posting request, the posting details, and
        the reply details when a reply URL is known. */
    method Details(posting: PostingArg, parse: string -> Url, fetchPage: Url -> DetailsPage,
                   fetchReply: Url -> seq<ReplyLabel>)
      returns (r: Result<FullDetails, string>)
      ensures r.Failure? <==> PostingUrlOf(posting).Failure?
      ensures r.Failure? ==> r.error == PostingUrlOf(posting).error
      ensures r.Success? ==>
        var url := PostingUrlOf(posting).value;
        var request := parse(url);
        var page := fetchPage(request);
        var target := ReplyTarget(Trim(page.replyHref.GetOr("")), replyUrl);
        && r.value.details == PostingDetailsOf(url, page)
        && (target.None? ==> r.value.replyRequest.None? && r.value.replyDetails.None?)
        && (target.Some? ==>
              r.value.replyRequest == Some(ReplyRequest(parse(target.value), request, IsSecure(request)))
              && r.value.replyDetails == Some(ReplyOf(fetchReply(r.value.replyRequest.value))))
    {
      if PostingIsEmpty(posting) {
        return Failure(PostingUrlRequired);
      }
      if posting.PostingRecord? && IsEmpty(Get(posting.props, "url")) {
        return Failure(PostingUrlRequired);
      }
      var postingUrl: string;
      if posting.PostingLink? {
        postingUrl := posting.link;
      } else if Get(posting.props, "url").Str? {
        postingUrl := Get(posting.props, "url").s;
      } else {
        return Failure(UrlNotAString);
      }

      var request := parse(postingUrl);
      var secure := Contains(request.protocol, Caseless("https"));
      var details := GetPostingDetails(postingUrl, fetchPage(request));

      var chosen := if details.replyUrl != "" then Some(details.replyUrl) else this.replyUrl;
      if chosen.None? || chosen.value == "" {
        return Success(FullDetails(details, None, None));
      }

      var reply := parse(chosen.value);
      if reply.hostname == "" {
        reply := reply.(hostname := request.hostname, protocol := if secure then ProtocolSecure else ProtocolInsecure);
      }
      var replyDetails := GetReplyDetails(fetchReply(reply));
      r := Success(FullDetails(details, Some(replyDetails), Some(reply)));
    }
  }
}

=== FILE: details.dfy ===
/** The posting-page extractor `_getPostingDetails` (src/client.ts): the
    pid, the posted and updated timestamps, the images and the attributes of
    one posting. The markup is replaced by the elements the selectors pick
    out, each given by the attribute values and texts the extractor reads. */
module PostingPage {
  import opened Wrappers
  import opened Strings

  /** One `.postinginfo` element: its text and the datetime of its `time`. */
  datatype InfoEntry = InfoEntry(text: string, datetime: Option<string>)

  /** One child of an attribute group: whether it is a `span`, and its text. */
  datatype AttrChild = AttrChild(isSpan: bool, text: string)

  /** What the selectors pick out of a posting page. */
  datatype DetailsPage = DetailsPage(
    bodyText: string,                 // text of #postingbody
    mapHref: Option<string>,          // href of `div.mapbox p.mapaddress a`
    replyHref: Option<string>,        // href of #replylink
    titleText: string,                // text of #titletextonly
    infos: seq<InfoEntry>,            // `.postinginfo` in `div.postinginfos`
    thumbHrefs: seq<Option<string>>,  // href of each `a` in #thumbs
    attrGroups: seq<seq<AttrChild>>)  // children of each `p.attrgroup` in `div.mapAndAttrs`

  /** The fields of `PostingDetailsPartial`. The timestamps are the raw
      datetime texts; `None` is `undefined`. An attribute without a value
      after its separator maps to `None`. */
  datatype PostingDetails = PostingDetails(
    postedAt: Option<string>,
    updatedAt: Option<string>,
    images: seq<string>,
    title: string,
    url: string,
    pid: string,
    description: string,
    mapUrl: Option<string>,
    replyUrl: string,
    attributes: map<string, Option<string>>)

  // ---------------------------------------------------------------- pid from the URL

  const HtmlSuffix: string := ".html"

  /** The regular expression `/[0-9]*\.html/` matches at `p`: a run of
      digits from `p` followed by ".html". */
  predicate DigitsThenHtmlAt(s: string, p: int) {
    0 <= p <= |s| &&
    exists k | p <= k <= |s| :: MatchesAt(s, k, Literal(HtmlSuffix)) && AllDigits(s[p..k])
  }

  function SearchFrom(s: string, p: nat): (r: int)
    requires p <= |s| + 1
    ensures r == -1 || (p <= r && DigitsThenHtmlAt(s, r))
    ensures forall q :: p <= q && (r == -1 || q < r) ==> !DigitsThenHtmlAt(s, q)
    decreases |s| + 1 - p
  {
    if p > |s| then -1
    else if DigitsThenHtmlAt(s, p) then p
    else SearchFrom(s, p + 1)
  }

  /** `s.search(/[0-9]*\.html/)`: the leftmost position where it matches,
      or -1. */
  function PidSearch(s: string): int {
    SearchFrom(s, 0)
  }

  /** `s.replace(t, '')` for a pattern without the `g` flag: the first
      occurrence removed. */
  function RemoveFirst(s: string, t: string): (r: string)
    requires |t| > 0
  {
    var i := IndexOf(s, t);
    if i < 0 then s else s[..i] + s[i + |t|..]
  }

  /** The initial pid: the URL from the search position on (the whole URL
      when the search fails, as `substring(-1)` starts at 0), with its first
      ".html" removed. */
  function UrlPid(url: string): string {
    var i := PidSearch(url);
    RemoveFirst(if i < 0 then url else url[i..], HtmlSuffix)
  }

  lemma NoHtmlAt(s: string, q: int)
    requires 0 <= q < |s| && s[q] != '.'
    ensures !MatchesAt(s, q, Literal(HtmlSuffix))
  {
    assert Literal(HtmlSuffix)[0] == Exact('.');
  }

  /** A posting URL "<prefix><digits>.html<rest>": no ".html" starts before
      the one after the digits. */
  lemma NoEarlierHtml(prefix: string, digits: string, rest: string, q: int)
    requires !Contains(prefix, Literal(HtmlSuffix)) && AllDigits(digits)
    requires 0 <= q < |prefix| + |digits|
    ensures !MatchesAt(prefix + digits + HtmlSuffix + rest, q, Literal(HtmlSuffix))
  {
    var s := prefix + digits + HtmlSuffix + rest;
    var n := |prefix|;
    var pat := Literal(HtmlSuffix);
    if q >= n {
      assert s[q] == digits[q - n];
      NoHtmlAt(s, q);
    } else if q + 5 <= n {
      if MatchesAt(s, q, pat) {
        forall k | 0 <= k < |pat| ensures AtomMatches(pat[k], prefix[q + k]) {
          assert s[q + k] == prefix[q + k];
        }
        assert MatchesAt(prefix, q, pat);
      }
    } else {
      // the match would cover position n, where a digit or the '.' of the
      // suffix stands, at one of the offsets 1..4 that hold a letter
      var o := n - q;
      assert 1 <= o <= 4;
      assert s[n] == (if |digits| > 0 then digits[0] else '.');
      assert pat[o] == Exact(HtmlSuffix[o]);
      assert HtmlSuffix[o] in "html";
    }
  }

  /** In "<prefix><digits>.html<rest>", where the prefix holds no ".html"
      and does not end in a digit, the search stops where the digits start. */
  lemma PidSearchOfPostingUrl(prefix: string, digits: string, rest: string)
    requires !Contains(prefix, Literal(HtmlSuffix))
    requires prefix == [] || !IsDigit(prefix[|prefix| - 1])
    requires AllDigits(digits)
    ensures PidSearch(prefix + digits + HtmlSuffix + rest) == |prefix|
  {
    var s := prefix + digits + HtmlSuffix + rest;
    var n := |prefix|;
    var m := n + |digits|;
    var pat := Literal(HtmlSuffix);
    MatchesLiteral(s, m, HtmlSuffix);
    assert s[m..m + 5] == HtmlSuffix;
    assert s[n..m] == digits;
    assert DigitsThenHtmlAt(s, n);
    forall p | 0 <= p < n ensures !DigitsThenHtmlAt(s, p) {
      forall k | p <= k <= |s| && MatchesAt(s, k, pat) ensures !AllDigits(s[p..k]) {
        if k < m {
          NoEarlierHtml(prefix, digits, rest, k);
        }
        assert s[p..k][n - 1 - p] == prefix[n - 1];
      }
    }
  }

  /** Removing the first ".html" from "<digits>.html<rest>" leaves
      "<digits><rest>". */
  lemma RemoveHtmlAfterDigits(digits: string, rest: string)
    requires AllDigits(digits)
    ensures RemoveFirst(digits + HtmlSuffix + rest, HtmlSuffix) == digits + rest
  {
    var t := digits + HtmlSuffix + rest;
    MatchesLiteral(t, |digits|, HtmlSuffix);
    assert t[|digits|..|digits| + 5] == HtmlSuffix;
    forall q | 0 <= q < |digits| ensures !MatchesAt(t, q, Literal(HtmlSuffix)) {
      NoHtmlAt(t, q);
    }
    assert IndexOf(t, HtmlSuffix) == |digits|;
    assert t[..|digits|] == digits && t[|digits| + 5..] == rest;
  }

  /** From "<prefix><digits>.html<rest>", where the prefix holds no ".html"
      and does not end in a digit, the initial pid is "<digits><rest>". */
  lemma UrlPidOfPostingUrl(prefix: string, digits: string, rest: string)
    requires !Contains(prefix, Literal(HtmlSuffix))
    requires prefix == [] || !IsDigit(prefix[|prefix| - 1])
    requires AllDigits(digits)
    ensures UrlPid(prefix + digits + HtmlSuffix + rest) == digits + rest
  {
    var s := prefix + digits + HtmlSuffix + rest;
    PidSearchOfPostingUrl(prefix, digits, rest);
    assert s[|prefix|..] == digits + HtmlSuffix + rest;
    RemoveHtmlAfterDigits(digits, rest);
  }

  /** A URL without ".html" is its own initial pid. */
  lemma UrlPidWithoutHtml(url: string)
    requires !Contains(url, Literal(HtmlSuffix))
    ensures UrlPid(url) == url
  {
    forall p | 0 <= p <= |url| ensures !DigitsThenHtmlAt(url, p) {
    }
  }

  // ---------------------------------------------------------------- posting info

  /** `/post\sid/i`. */
  function PostIdPattern(): seq<Atom> {
    Caseless("post") + [Space] + Caseless("id")
  }

  /** The pid an info entry sets: for a "post id" entry, the trimmed text
      between its first and second ':' (`split(/\:/)[1] || ''`). */
  function InfoPid(e: InfoEntry): (r: Option<string>)
    ensures r.Some? <==> Contains(e.text, PostIdPattern())
    ensures r.Some? ==> IsTrimmed(r.value)
  {
    if Contains(e.text, PostIdPattern()) then
      var parts := SplitOn(e.text, Literal(":"));
      Some(Trim(if |parts| > 1 then parts[1] else ""))
    else None
  }

  /** A "post id" entry whose text has a second ':' after the value, or
      ends there, sets the trimmed value between the first ':' and it. */
  lemma {:induction false} InfoPidOfLabel(lab: string, value: string, rest: string, dt: Option<string>)
    requires Contains(lab + [':'] + value + rest, PostIdPattern())
    requires Lacks(lab, ':') && Lacks(value, ':')
    requires rest == [] || rest[0] == ':'
    ensures InfoPid(InfoEntry(lab + [':'] + value + rest, dt)) == Some(Trim(value))
  {
    SplitOnCharSecond(lab, value, rest, ':');
    assert Literal(":") == Literal([':']);
  }

  /** A "post id" entry without any ':' sets the id `''`
      (`split(/\:/)[1]` is undefined). */
  lemma {:induction false} InfoPidWithoutColon(e: InfoEntry)
    requires Contains(e.text, PostIdPattern()) && Lacks(e.text, ':')
    ensures InfoPid(e) == Some("")
  {
    SplitOnCharNone(e.text, ':');
  }

  /** A datetime that is present and not empty (truthy). */
  predicate HasDatetime(e: InfoEntry) {
    e.datetime.Some? && e.datetime.value != ""
  }

  /** The posted time an info entry sets: only an entry that is not a
      "post id" entry, mentions "posted" and has a datetime. */
  function InfoPosted(e: InfoEntry): (r: Option<string>)
    ensures r.Some? ==> HasDatetime(e) && r.value == e.datetime.value
  {
    if !Contains(e.text, PostIdPattern()) && Contains(e.text, Caseless("posted")) && HasDatetime(e)
    then Some(e.datetime.value) else None
  }

  /** The updated time an info entry sets: only an entry that set neither
      the pid nor the posted time, mentions "updated" and has a datetime. */
  function InfoUpdated(e: InfoEntry): (r: Option<string>)
    ensures r.Some? ==> HasDatetime(e) && r.value == e.datetime.value
    ensures r.Some? ==> InfoPid(e).None? && InfoPosted(e).None?
  {
    if !Contains(e.text, PostIdPattern()) && !(Contains(e.text, Caseless("posted")) && HasDatetime(e))
       && Contains(e.text, Caseless("updated")) && HasDatetime(e)
    then Some(e.datetime.value) else None
  }

  /** An entry sets at most one of the three fields. */
  lemma InfoSetsOneField(e: InfoEntry)
    ensures !(InfoPid(e).Some? && InfoPosted(e).Some?)
    ensures !(InfoPid(e).Some? && InfoUpdated(e).Some?)
    ensures !(InfoPosted(e).Some? && InfoUpdated(e).Some?)
  {
  }

  // ---------------------------------------------------------------- attributes

  /** `/:\s/`. */
  function ColonSpace(): seq<Atom> {
    [Exact(':'), Space]
  }

  /** `replace(/\s/g, '_')`. */
  function Underscored(s: string): (r: string)
    ensures |r| == |s|
    ensures forall i :: 0 <= i < |s| ==> r[i] == (if IsSpace(s[i]) then '_' else s[i])
  {
    seq(|s|, i requires 0 <= i < |s| => if IsSpace(s[i]) then '_' else s[i])
  }

  /** The key of an attribute span: its text up to the first ": ", with
      white space turned into '_'. */
  function AttrKey(text: string): (k: string)
    ensures forall i :: 0 <= i < |k| ==> !IsSpace(k[i])
  {
    Underscored(SplitOn(text, ColonSpace())[0])
  }

  /** The value of an attribute span: the piece after the first ": ", or
      undefined when there is none. */
  function AttrValue(text: string): Option<string> {
    var parts := SplitOn(text, ColonSpace());
    if |parts| > 1 then Some(parts[1]) else None
  }

  /** A span "<key>: <value>" whose key and value hold no `:\s` gives
      exactly that key (white space turned into '_') and value. */
  lemma AttrOfKeyValue(key: string, sp: char, value: string)
    requires !Contains(key, ColonSpace()) && IsSpace(sp) && !Contains(value, ColonSpace())
    ensures AttrKey(key + [':', sp] + value) == Underscored(key)
    ensures AttrValue(key + [':', sp] + value) == Some(value)
  {
    var s := key + [':', sp] + value;
    var pat := ColonSpace();
    assert MatchesAt(s, |key|, pat);
    forall q | 0 <= q < |key| ensures !MatchesAt(s, q, pat) {
      if q + 1 < |key| {
        assert !MatchesAt(key, q, pat);
        assert s[q] == key[q] && s[q + 1] == key[q + 1];
      } else {
        assert pat[1] == Space && s[q + 1] == ':';
      }
    }
    assert Find(s, pat) == |key|;
    assert s[..|key|] == key && s[|key| + 2..] == value;
    assert SplitOn(s, pat) == [key, value];
  }

  /** A span without ": " has its whole text as key and no value. */
  lemma AttrWithoutSeparator(text: string)
    requires !Contains(text, ColonSpace())
    ensures AttrKey(text) == Underscored(text)
    ensures AttrValue(text) == None
  {
  }

  /** The children of the last attribute group (`.last().children()`); none
      when there is no group. */
  function LastGroup(groups: seq<seq<AttrChild>>): seq<AttrChild> {
    if |groups| == 0 then [] else groups[|groups| - 1]
  }

  /** The attributes set by the children, in order: each span writes its key,
      and a later span overwrites an earlier one with the same key. */
  function Attributes(children: seq<AttrChild>): map<string, Option<string>>
    decreases |children|
  {
    if |children| == 0 then map[]
    else
      var c := children[|children| - 1];
      var before := Attributes(children[..|children| - 1]);
      if c.isSpan then before[AttrKey(c.text) := AttrValue(c.text)] else before
  }

  /** The span that sets `key` last, if any, as the value it sets. */
  function SpanFor(key: string): AttrChild -> Option<Option<string>> {
    (c: AttrChild) => if c.isSpan && AttrKey(c.text) == key then Some(AttrValue(c.text)) else None
  }

  /** Last write wins: an attribute is present exactly when some span has its
      key, and then holds the value of the last such span. */
  lemma {:induction false} AttributesLastWins(children: seq<AttrChild>, key: string)
    ensures key in Attributes(children) <==> LastSome(children, SpanFor(key)).Some?
    ensures key in Attributes(children) ==> Attributes(children)[key] == LastSome(children, SpanFor(key)).value
    decreases |children|
  {
    if |children| > 0 {
      AttributesLastWins(children[..|children| - 1], key);
    }
  }

  // ---------------------------------------------------------------- extractor

  /** The details a posting page yields: the id from the last post-id entry,
      else from the URL; the last posted and updated timestamps; the trimmed
      thumbnail links; the attributes of the last group; the trimmed title,
      description and reply link. */
  function PostingDetailsOf(postingUrl: string, page: DetailsPage): PostingDetails {
    PostingDetails(
      postedAt := LastSome(page.infos, InfoPosted),
      updatedAt := LastSome(page.infos, InfoUpdated),
      images := seq(|page.thumbHrefs|, i requires 0 <= i < |page.thumbHrefs| => Trim(page.thumbHrefs[i].GetOr(""))),
      title := Trim(page.titleText),
      url := postingUrl,
      pid := LastSome(page.infos, InfoPid).GetOr(UrlPid(postingUrl)),
      description := Trim(page.bodyText),
      mapUrl := page.mapHref,
      replyUrl := Trim(page.replyHref.GetOr("")),
      attributes := Attributes(LastGroup(page.attrGroups)))
  }

  /** `_getPostingDetails`: the fields read directly, then the `each` over
      the info entries, the image links, and the `each` over the children of
      the last attribute group. */
  method GetPostingDetails(postingUrl: string, page: DetailsPage) returns (d: PostingDetails)
    ensures d.pid == LastSome(page.infos, InfoPid).GetOr(UrlPid(postingUrl))
    ensures d.postedAt == LastSome(page.infos, InfoPosted)
    ensures d.updatedAt == LastSome(page.infos, InfoUpdated)
    ensures d.images == seq(|page.thumbHrefs|, i requires 0 <= i < |page.thumbHrefs| =>
                              Trim(page.thumbHrefs[i].GetOr("")))
    ensures d.attributes == Attributes(LastGroup(page.attrGroups))
    ensures d.title == Trim(page.titleText) && d.description == Trim(page.bodyText)
    ensures d.url == postingUrl && d.mapUrl == page.mapHref
    ensures d.replyUrl == Trim(page.replyHref.GetOr(""))
    ensures d == PostingDetailsOf(postingUrl, page)
  {
    var attributes: map<string, Option<string>> := map[];
    var postedAt: Option<string> := None;
    var updatedAt: Option<string> := None;
    var description := Trim(page.bodyText);
    var mapUrl := page.mapHref;
    var pid := UrlPid(postingUrl);
    var replyUrl := Trim(page.replyHref.GetOr(""));
    var title := Trim(page.titleText);

    var infos := page.infos;
    for i := 0 to |infos|
      invariant pid == LastSome(infos[..i], InfoPid).GetOr(UrlPid(postingUrl))
      invariant postedAt == LastSome(infos[..i], InfoPosted)
      invariant updatedAt == LastSome(infos[..i], InfoUpdated)
    {
      var e := infos[i];
      assert infos[..i + 1][..i] == infos[..i];
      if Contains(e.text, PostIdPattern()) {
        var parts := SplitOn(e.text, Literal(":"));
        pid := Trim(if |parts| > 1 then parts[1] else "");
        continue;
      }
      if Contains(e.text, Caseless("posted")) && HasDatetime(e) {
        postedAt := Some(e.datetime.value);
        continue;
      }
      if Contains(e.text, Caseless("updated")) && HasDatetime(e) {
        updatedAt := Some(e.datetime.value);
        continue;
      }
    }
    assert infos[..|infos|] == infos;

    var images := seq(|page.thumbHrefs|, i requires 0 <= i < |page.thumbHrefs| =>
                        Trim(page.thumbHrefs[i].GetOr("")));

    var children := LastGroup(page.attrGroups);
    for i := 0 to |children|
      invariant attributes == Attributes(children[..i])
    {
      assert children[..i + 1][..i] == children[..i];
      if children[i].isSpan {
        var text := children[i].text;
        attributes := attributes[AttrKey(text) := AttrValue(text)];
      }
    }
    assert children[..|children|] == children;

    d := PostingDetails(postedAt, updatedAt, images, title, postingUrl, pid, description, mapUrl,
                        replyUrl, attributes);
  }
}

=== FILE: jsvalues.dfy ===
/** The JavaScript values that flow through the option objects, with the
    conversions the scraper applies to them implicitly: truthiness in `if`,
    `String(v)` and the rendering of an element by `Array.prototype.join`. */
module JsValues {
  import opened Strings

  /** A JavaScript value. Numbers are restricted to NaN and integers; `Obj`
      is any other object, given by its own enumerable keys and by the text
      its `toString()` returns ("[object Object]" for a plain object). */
  datatype JsValue =
    | Undefined
    | Null
    | Bool(b: bool)
    | Num(n: int)
    | NaN
    | Str(s: string)
    | Arr(items: seq<JsValue>)
    | Obj(keys: set<string>, text: string)

  /** What `toString()` returns for a plain object. */
  const PlainObjectText: string := "[object Object]"

  /** The value of an `if (v)` test. Objects and arrays, even empty ones, are
      truthy; `0`, NaN and `''` are not. */
  predicate Truthy(v: JsValue) {
    match v
    case Undefined => false
    case Null => false
    case Bool(b) => b
    case Num(n) => n != 0
    case NaN => false
    case Str(s) => s != ""
    case Arr(_) => true
    case Obj(_, _) => true
  }

  /** `String(v)`. An array renders as the join of its elements with ",". */
  function ToJsString(v: JsValue): string
    decreases v, 0
  {
    match v
    case Undefined => "undefined"
    case Null => "null"
    case Bool(b) => if b then "true" else "false"
    case Num(n) => IntToDecimal(n)
    case NaN => "NaN"
    case Str(s) => s
    case Arr(items) => JoinWith(seq(|items|, i requires 0 <= i < |items| => JoinText(items[i])), ",")
    case Obj(_, text) => text
  }

  /** How `Array.prototype.join` renders one element: `null` and `undefined`
      become the empty string, everything else is `String(v)`. */
  function JoinText(v: JsValue): (r: string)
    ensures v.Undefined? || v.Null? ==> r == ""
    ensures v.Str? ==> r == v.s
    decreases v, 1
  {
    if v.Undefined? || v.Null? then "" else ToJsString(v)
  }

  /** The property `key` of a plain object given as a map: `undefined` when
      the object has no such property. */
  function Get(props: map<string, JsValue>, key: string): JsValue {
    if key in props then props[key] else Undefined
  }
}

=== FILE: listings.dfy ===
/** The search-results extractor `_getPostings` (src/client.ts): one
    `Posting` per result row that links to a posting, in row order. The
    markup is replaced by the rows the selectors pick out, each given by the
    attribute values and texts the extractor reads. */
module Listings {
  import opened Wrappers
  import opened Strings

  const ProtocolSecure: string := "https:"
  const ProtocolInsecure: string := "http:"

  /** `DEFAULT_CATEGORY_DETAILS_INDEX`: which segment of a posting link names
      its category. */
  const CategoryDetailsIndex: nat := 1

  /** A parsed URL: the protocol and hostname, which the client rewrites,
      and everything else. */
  datatype Url = Url(protocol: string, hostname: string, rest: string)

  /** The protocol of a request: "https:" when secure, "http:" otherwise. */
  function Protocol(secure: bool): string {
    if secure then ProtocolSecure else ProtocolInsecure
  }

  /** One `.result-row` element. An attribute is `None` when it is absent; a
      text is "" when the element it is read from is absent. */
  datatype ResultRow = ResultRow(
    titleHref: Option<string>,   // href of `.result-title`
    titleText: string,           // text of `.result-title`
    latitude: Option<string>,    // data-latitude
    longitude: Option<string>,   // data-longitude
    datetime: Option<string>,    // datetime of `time`
    tagsText: string,            // text of `.result-tags`
    hoodText: string,            // text of `.result-hood`
    pid: Option<string>,         // data-pid
    priceText: string)           // text of `.result-meta .result-price`

  datatype Coordinates = Coordinates(lat: string, lon: string)

  /** A search result, with the fields of the `Posting` interface. */
  datatype Posting = Posting(
    category: Option<string>,
    coordinates: Option<Coordinates>,
    date: string,
    hasPic: bool,
    location: string,
    pid: string,
    price: string,
    title: string,
    url: Url)

  // ---------------------------------------------------------------- category

  /** `RE_HTML`, `/\.htm(l)?/i`: its leftmost match always starts with a
      case-insensitive ".htm". */
  function HtmlPattern(): seq<Atom> {
    Caseless(".htm")
  }

  /** The segments of a link that are not empty (`filter(term => term.length)`). */
  function NonEmptyTerms(parts: seq<string>): (kept: seq<string>)
    ensures |kept| <= |parts|
    ensures forall k :: 0 <= k < |kept| ==> kept[k] != ""
    decreases |parts|
  {
    if |parts| == 0 then []
    else (if parts[0] != "" then [parts[0]] else []) + NonEmptyTerms(parts[1..])
  }

  /** `term.split(RE_HTML)[0]`: the segment up to its first ".htm" in any
      case. */
  function CutAtHtml(term: string): (r: string)
    ensures |r| <= |term| && r == term[..|r|]
    ensures !Contains(r, HtmlPattern())
    ensures |r| < |term| ==> MatchesAt(term, |r|, HtmlPattern())
  {
    var i := Find(term, HtmlPattern());
    if i < 0 then term
    else
      assert !Contains(term[..i], HtmlPattern()) by {
        forall j | MatchesAt(term[..i], j, HtmlPattern()) ensures false {
          MatchesInPrefix(term, i, j, HtmlPattern());
        }
      }
      term[..i]
  }

  /** The segments of a posting link, split on "/", the empty ones dropped,
      each cut at ".htm". */
  function HrefTerms(href: string): seq<string> {
    HrefTermsOf(SplitOn(href, Literal("/")))
  }

  /** The non-empty segments, each cut at ".htm". */
  function HrefTermsOf(parts: seq<string>): seq<string> {
    var terms := NonEmptyTerms(parts);
    seq(|terms|, k requires 0 <= k < |terms| => CutAtHtml(terms[k]))
  }

  /** `details[DEFAULT_CATEGORY_DETAILS_INDEX]`, undefined when the link has
      fewer segments. */
  function Category(href: string): Option<string> {
    var terms := HrefTerms(href);
    if CategoryDetailsIndex < |terms| then Some(terms[CategoryDetailsIndex]) else None
  }

  /** For a link relative to the site, "/area/category/…", the category is
      the second segment. */
  lemma CategoryOfRelativeHref(area: string, cat: string, rest: string)
    requires area != "" && Lacks(area, '/')
    requires cat != "" && Lacks(cat, '/') && !Contains(cat, HtmlPattern())
    ensures Category("/" + area + "/" + cat + "/" + rest) == Some(cat)
  {
    SplitThree("", area, cat, rest);
    assert "" + "/" == "/";
    NonEmptyTermsThree("", area, cat, SplitOn(rest, Literal("/")));
  }

  /** For an absolute link, "scheme://host/…", the second segment and so
      the category is the host. */
  lemma CategoryOfAbsoluteHref(scheme: string, host: string, rest: string)
    requires scheme != "" && Lacks(scheme, '/')
    requires host != "" && Lacks(host, '/') && !Contains(host, HtmlPattern())
    ensures Category(scheme + "/" + "/" + host + "/" + rest) == Some(host)
  {
    SplitThree(scheme, "", host, rest);
    assert scheme + "/" + "" == scheme + "/";
    NonEmptyTermsThree(scheme, "", host, SplitOn(rest, Literal("/")));
  }

  lemma SplitThree(x: string, y: string, z: string, rest: string)
    requires Lacks(x, '/') && Lacks(y, '/') && Lacks(z, '/')
    ensures SplitOn(x + "/" + y + "/" + z + "/" + rest, Literal("/"))
         == [x] + ([y] + ([z] + SplitOn(rest, Literal("/"))))
  {
    SplitTwo(y, z, rest);
    PeelFirst(x, y, z, rest);
    SplitOnCharFirst(x, '/', y + "/" + z + "/" + rest);
  }

  lemma SplitTwo(y: string, z: string, rest: string)
    requires Lacks(y, '/') && Lacks(z, '/')
    ensures SplitOn(y + "/" + z + "/" + rest, Literal("/")) == [y] + ([z] + SplitOn(rest, Literal("/")))
  {
    SplitOnCharFirst(z, '/', rest);
    var r := z + "/" + rest;
    AppendAssoc(y + "/", z, "/");
    AppendAssoc(y + "/", z + "/", rest);
    SplitOnCharFirst(y, '/', r);
  }

  lemma PeelFirst(x: string, y: string, z: string, rest: string)
    ensures x + "/" + y + "/" + z + "/" + rest == x + ['/'] + (y + "/" + z + "/" + rest)
  {
    var p := x + "/";
    AppendAssoc(p, y, "/");
    AppendAssoc(p, y + "/", z);
    AppendAssoc(p, y + "/" + z, "/");
    AppendAssoc(p, y + "/" + z + "/", rest);
  }

  /** Of three leading segments of which exactly one is empty, the other two
      are the first two terms, and the second of them is the category. */
  lemma NonEmptyTermsThree(x: string, y: string, z: string, tail: seq<string>)
    requires (x == "") != (y == "") && z != "" && !Contains(z, HtmlPattern())
    ensures |HrefTermsOf([x] + ([y] + ([z] + tail)))| >= 2
    ensures HrefTermsOf([x] + ([y] + ([z] + tail)))[1] == z
  {
    var zs := [z] + tail;
    var ys := [y] + zs;
    var parts := [x] + ys;
    assert parts[0] == x && parts[1..] == ys;
    assert ys[0] == y && ys[1..] == zs;
    assert zs[0] == z && zs[1..] == tail;
    assert NonEmptyTerms(zs) == [z] + NonEmptyTerms(tail);
    assert NonEmptyTerms(ys) == (if y != "" then [y] else []) + NonEmptyTerms(zs);
    var terms := NonEmptyTerms(parts);
    assert terms == (if x != "" then [x] else [y]) + NonEmptyTerms(zs);
    assert terms[1] == z;
  }

  // ---------------------------------------------------------------- fields

  /** The entity for "$" that the price text may start with. */
  const DollarEntity: string := "&#x0024;"

  /** `replace(/^\&\#x0024\;/g, '')` then `trim()`: the anchored pattern
      matches at most once, at the start. */
  function SanitizePrice(text: string): (r: string)
    ensures IsTrimmed(r)
  {
    var stripped :=
      if |DollarEntity| <= |text| && text[..|DollarEntity|] == DollarEntity
      then text[|DollarEntity|..] else text;
    Trim(stripped)
  }

  /** A leading entity is dropped once: the rest is only trimmed, even when
      it starts with the entity again. */
  lemma SanitizePriceLeadingEntity(rest: string)
    ensures SanitizePrice(DollarEntity + rest) == Trim(rest)
  {
    assert (DollarEntity + rest)[..|DollarEntity|] == DollarEntity;
    assert (DollarEntity + rest)[|DollarEntity|..] == rest;
  }

  /** Without the leading entity the price is the trimmed text. */
  lemma SanitizePriceNoEntity(text: string)
    requires !(|DollarEntity| <= |text| && text[..|DollarEntity|] == DollarEntity)
    ensures SanitizePrice(text) == Trim(text)
  {
  }

  /** `RE_TAGS_MAP.test(tags)`, `/map/i`. */
  predicate HasMapTag(tags: string) {
    Contains(tags, Caseless("map"))
  }

  /** The tags mention a map exactly when some three consecutive characters
      spell "map" in any case. */
  lemma HasMapTagIff(tags: string)
    ensures HasMapTag(tags) <==>
      exists i :: 0 <= i && i + 3 <= |tags| &&
        LowerAscii(tags[i]) == 'm' && LowerAscii(tags[i + 1]) == 'a' && LowerAscii(tags[i + 2]) == 'p'
  {
    var pat := Caseless("map");
    MapPattern();
    if HasMapTag(tags) {
      var i := Find(tags, pat);
      assert AtomMatches(pat[0], tags[i]) && AtomMatches(pat[1], tags[i + 1])
        && AtomMatches(pat[2], tags[i + 2]);
    }
    forall i | 0 <= i && i + 3 <= |tags| && LowerAscii(tags[i]) == 'm'
      && LowerAscii(tags[i + 1]) == 'a' && LowerAscii(tags[i + 2]) == 'p'
      ensures HasMapTag(tags)
    {
      assert MatchesAt(tags, i, pat);
    }
  }

  lemma MapPattern()
    ensures Caseless("map") == [Letter('m'), Letter('a'), Letter('p')]
  {
    var pat := Caseless("map");
    assert pat[0] == Letter('m') && pat[1] == Letter('a') && pat[2] == Letter('p');
  }

  /** The link of a posting: the parsed href with the request's hostname when
      it names none, and the request's protocol. */
  function DetailsUrl(href: string, hostname: string, secure: bool, parse: string -> Url): (u: Url)
    ensures u.rest == parse(href).rest
    ensures u.hostname == (if parse(href).hostname != "" then parse(href).hostname else hostname)
    ensures u.protocol == Protocol(secure)
  {
    var parsed := parse(href);
    parsed.(hostname := if parsed.hostname != "" then parsed.hostname else hostname,
            protocol := Protocol(secure))
  }

  /** The posting a row with a title link yields. */
  function RowPosting(row: ResultRow, hostname: string, secure: bool, parse: string -> Url): Posting
    requires row.titleHref.Some?
  {
    var href := row.titleHref.value;
    Posting(
      category := Category(href),
      coordinates :=
        if row.latitude.Some? && row.longitude.Some?
        then Some(Coordinates(row.latitude.value, row.longitude.value)) else None,
      date := Trim(row.datetime.GetOr("")),
      hasPic := HasMapTag(row.tagsText),
      location := Trim(row.hoodText),
      pid := Trim(row.pid.GetOr("")),
      price := SanitizePrice(row.priceText),
      title := Trim(row.titleText),
      url := DetailsUrl(href, hostname, secure, parse))
  }

  /** The per-field rules of a posting: coordinates exactly when both are
      given, every text field trimmed, the price sanitised, the link on the
      request's protocol. */
  lemma RowPostingFields(row: ResultRow, hostname: string, secure: bool, parse: string -> Url)
    requires row.titleHref.Some?
    ensures var p := RowPosting(row, hostname, secure, parse);
      && (p.coordinates.Some? <==> row.latitude.Some? && row.longitude.Some?)
      && (p.coordinates.Some? ==> p.coordinates.value == Coordinates(row.latitude.value, row.longitude.value))
      && p.date == Trim(row.datetime.GetOr("")) && p.location == Trim(row.hoodText)
      && p.pid == Trim(row.pid.GetOr("")) && p.title == Trim(row.titleText)
      && IsTrimmed(p.date) && IsTrimmed(p.location) && IsTrimmed(p.pid) && IsTrimmed(p.title)
      && p.price == SanitizePrice(row.priceText) && IsTrimmed(p.price)
      && p.hasPic == HasMapTag(row.tagsText)
      && p.category == Category(row.titleHref.value)
      && p.url == DetailsUrl(row.titleHref.value, hostname, secure, parse)
      && p.url.protocol == Protocol(secure)
      && (p.url.hostname == "" ==> parse(row.titleHref.value).hostname == "" && hostname == "")
  {
  }

  // ---------------------------------------------------------------- rows

  /** The postings one row contributes: one when it has a title link. */
  function RowPostings(row: ResultRow, hostname: string, secure: bool, parse: string -> Url): seq<Posting> {
    if row.titleHref.Some? then [RowPosting(row, hostname, secure, parse)] else []
  }

  /** What `_getPostings` returns for the selected rows: a posting for each
      row with a title link, in row order. */
  function Postings(hostname: string, secure: bool, rows: seq<ResultRow>, parse: string -> Url): seq<Posting>
    decreases |rows|
  {
    if |rows| == 0 then []
    else RowPostings(rows[0], hostname, secure, parse) + Postings(hostname, secure, rows[1..], parse)
  }

  /** Rows are processed independently: the postings of two runs of rows
      are those of the first followed by those of the second. */
  lemma {:induction false} PostingsAppend(hostname: string, secure: bool, a: seq<ResultRow>, b: seq<ResultRow>,
                                          parse: string -> Url)
    ensures Postings(hostname, secure, a + b, parse)
         == Postings(hostname, secure, a, parse) + Postings(hostname, secure, b, parse)
    decreases |a|
  {
    if |a| > 0 {
      assert (a + b)[0] == a[0];
      assert (a + b)[1..] == a[1..] + b;
      PostingsAppend(hostname, secure, a[1..], b, parse);
      AppendAssoc(RowPostings(a[0], hostname, secure, parse), Postings(hostname, secure, a[1..], parse),
                  Postings(hostname, secure, b, parse));
    } else {
      assert a + b == b;
    }
  }

  lemma PostingsOne(row: ResultRow, hostname: string, secure: bool, parse: string -> Url)
    ensures Postings(hostname, secure, [row], parse) == RowPostings(row, hostname, secure, parse)
  {
    assert [row][1..] == [];
  }

  lemma PostingsSnoc(hostname: string, secure: bool, rows: seq<ResultRow>, row: ResultRow, parse: string -> Url)
    ensures Postings(hostname, secure, rows + [row], parse)
         == Postings(hostname, secure, rows, parse) + RowPostings(row, hostname, secure, parse)
  {
    PostingsAppend(hostname, secure, rows, [row], parse);
    PostingsOne(row, hostname, secure, parse);
  }

  /** A row without a title link is skipped and changes nothing else. */
  lemma SkippedRow(hostname: string, secure: bool, a: seq<ResultRow>, row: ResultRow, b: seq<ResultRow>,
                   parse: string -> Url)
    requires row.titleHref.None?
    ensures Postings(hostname, secure, a + [row] + b, parse) == Postings(hostname, secure, a + b, parse)
  {
    PostingsAppend(hostname, secure, a + [row], b, parse);
    PostingsAppend(hostname, secure, a, [row], parse);
    PostingsAppend(hostname, secure, a, b, parse);
    PostingsOne(row, hostname, secure, parse);
  }

  /** When every row links to a posting there is one posting per row, in
      row order. */
  lemma {:induction false} AllRowsLinked(hostname: string, secure: bool, rows: seq<ResultRow>, parse: string -> Url)
    requires forall k :: 0 <= k < |rows| ==> rows[k].titleHref.Some?
    ensures |Postings(hostname, secure, rows, parse)| == |rows|
    ensures forall k :: 0 <= k < |rows| ==>
      Postings(hostname, secure, rows, parse)[k] == RowPosting(rows[k], hostname, secure, parse)
    decreases |rows|
  {
    if |rows| > 0 {
      AllRowsLinked(hostname, secure, rows[1..], parse);
      var tail := Postings(hostname, secure, rows[1..], parse);
      assert Postings(hostname, secure, rows, parse) == [RowPosting(rows[0], hostname, secure, parse)] + tail;
      forall k | 1 <= k < |rows|
        ensures Postings(hostname, secure, rows, parse)[k] == RowPosting(rows[k], hostname, secure, parse)
      {
        assert rows[1..][k - 1] == rows[k];
      }
    }
  }

  /** Rows without a title link yield nothing at all. */
  lemma {:induction false} NoRowsLinked(hostname: string, secure: bool, rows: seq<ResultRow>, parse: string -> Url)
    requires forall k :: 0 <= k < |rows| ==> rows[k].titleHref.None?
    ensures Postings(hostname, secure, rows, parse) == []
    decreases |rows|
  {
    if |rows| > 0 {
      NoRowsLinked(hostname, secure, rows[1..], parse);
    }
  }

  /** `_getPostings`: the `each` over the rows, pushing a posting for every
      row with a title link. */
  method GetPostings(hostname: string, secure: bool, rows: seq<ResultRow>, parse: string -> Url)
    returns (postings: seq<Posting>)
    ensures postings == Postings(hostname, secure, rows, parse)
  {
    postings := [];
    for i := 0 to |rows|
      invariant postings == Postings(hostname, secure, rows[..i], parse)
    {
      var row := rows[i];
      assert rows[..i + 1] == rows[..i] + [row];
      PostingsSnoc(hostname, secure, rows[..i], row, parse);
      if row.titleHref.None? {
        // the source warns and returns from the callback
        continue;
      }
      postings := postings + [RowPosting(row, hostname, secure, parse)];
    }
    assert rows[..|rows|] == rows;
  }
}

=== FILE: reply.dfy ===
/** The reply-page extractor `_getReplyDetails` (src/client.ts): contact
    name, phone number and email of a posting's reply options. The markup is
    replaced by the `b` labels inside `div.reply_options`, each with the
    texts of the list items the extractor walks for it. */
module Reply {
  import opened Wrappers
  import opened Strings

  /** One `b` label: its text, the `li` texts under its next sibling, and the
      `li` texts under its parent. */
  datatype ReplyLabel = ReplyLabel(text: string, nextItems: seq<string>, parentItems: seq<string>)

  /** `ReplyDetails`; `None` is a field left `undefined`. */
  datatype ReplyDetails = ReplyDetails(
    email: Option<string>,
    phoneNumber: Option<string>,
    contactName: Option<string>)

  /** The telephone sign U+260E that marks a phone number. */
  const Telephone: char := '☎'

  /** `/contact\sname/i`. */
  function ContactNamePattern(): seq<Atom> {
    Caseless("contact") + [Space] + Caseless("name")
  }

  /** A label that names the contact; it is handled before any other test. */
  predicate IsContactLabel(l: ReplyLabel) {
    Contains(Trim(l.text), ContactNamePattern())
  }

  /** A label that introduces the call and email options. */
  predicate IsCallLabel(l: ReplyLabel) {
    !IsContactLabel(l) && Contains(Trim(l.text), Caseless("call"))
  }

  /** Where the first '(' stands, if anywhere. */
  lemma OpenParenFacts(value: string)
    ensures IndexOf(value, "(") < 0 ==> Lacks(value, '(')
    ensures IndexOf(value, "(") >= 0 ==>
      IndexOf(value, "(") < |value| && value[IndexOf(value, "(")] == '(' &&
      Lacks(value[..IndexOf(value, "(")], '(')
  {
    var i := IndexOf(value, "(");
    assert Literal("(")[0] == Exact('(');
    forall k | 0 <= k < |value| && (i < 0 || k < i) ensures value[k] != '(' {
      assert !MatchesAt(value, k, Literal("("));
    }
    if i >= 0 {
      assert MatchesAt(value, i, Literal("("));
      forall k | 0 <= k < i ensures value[..i][k] != '(' {
        assert value[..i][k] == value[k];
      }
    }
  }

  /** `value.substring(value.indexOf('('))`: from the first '(' on, or the
      whole value when there is none (`substring(-1)` starts at 0). */
  function PhoneNumberOf(value: string): (r: string)
    ensures |r| <= |value| && r == value[|value| - |r|..]
    ensures Lacks(value[..|value| - |r|], '(')
    ensures Contains(value, Literal("(")) <==> |r| > 0 && r[0] == '('
    ensures !Contains(value, Literal("(")) ==> r == value
  {
    OpenParenFacts(value);
    var i := IndexOf(value, "(");
    if i < 0 then value else value[i..]
  }

  /** The phone number a list item writes: only a value with the telephone
      sign. */
  function ItemPhone(value: string): Option<string> {
    if Contains(value, Literal([Telephone])) then Some(PhoneNumberOf(value)) else None
  }

  /** The email a list item writes: only a value without the telephone sign
      that holds an '@'. */
  function ItemEmail(value: string): (r: Option<string>)
    ensures r.Some? ==> ItemPhone(value).None? && r.value == value
  {
    if !Contains(value, Literal([Telephone])) && Contains(value, Literal("@")) then Some(value) else None
  }

  /** The trimmed texts of some list items. */
  function Trimmed(items: seq<string>): (r: seq<string>)
    ensures |r| == |items|
  {
    seq(|items|, i requires 0 <= i < |items| => Trim(items[i]))
  }

  /** Trimming one more item appends that item trimmed. */
  lemma TrimmedSnoc(items: seq<string>, j: nat)
    requires j < |items|
    ensures Trimmed(items[..j + 1]) == Trimmed(items[..j]) + [Trim(items[j])]
  {
    var a, b := Trimmed(items[..j + 1]), Trimmed(items[..j]) + [Trim(items[j])];
    assert forall k :: 0 <= k < |a| ==> a[k] == b[k];
  }

  /** The contact names written, in order: the items under each contact
      label. */
  function ContactNames(labels: seq<ReplyLabel>): seq<string>
    decreases |labels|
  {
    if |labels| == 0 then []
    else
      var l := labels[|labels| - 1];
      ContactNames(labels[..|labels| - 1]) + (if IsContactLabel(l) then Trimmed(l.nextItems) else [])
  }

  /** The values inspected for a phone number or an email, in order: the
      items under the parent of each call label. */
  function CallValues(labels: seq<ReplyLabel>): seq<string>
    decreases |labels|
  {
    if |labels| == 0 then []
    else
      var l := labels[|labels| - 1];
      CallValues(labels[..|labels| - 1]) + (if IsCallLabel(l) then Trimmed(l.parentItems) else [])
  }

  /** The last element, if any. */
  function LastOf(s: seq<string>): (r: Option<string>)
    ensures r.Some? <==> |s| > 0
  {
    if |s| == 0 then None else Some(s[|s| - 1])
  }

  /** What the labels leave behind: every write overwrites the previous one. */
  function ReplyOf(labels: seq<ReplyLabel>): ReplyDetails {
    ReplyDetails(
      LastSome(CallValues(labels), ItemEmail),
      LastSome(CallValues(labels), ItemPhone),
      LastOf(ContactNames(labels)))
  }

  /** A page without labels, or whose labels are neither kind, yields no
      reply details at all. */
  lemma {:induction false} ReplyOfUnrelatedLabels(labels: seq<ReplyLabel>)
    requires forall k :: 0 <= k < |labels| ==> !IsContactLabel(labels[k]) && !IsCallLabel(labels[k])
    ensures ContactNames(labels) == [] && CallValues(labels) == []
    ensures ReplyOf(labels) == ReplyDetails(None, None, None)
    decreases |labels|
  {
    if |labels| > 0 {
      var p := labels[..|labels| - 1];
      assert forall k :: 0 <= k < |p| ==> p[k] == labels[k];
      ReplyOfUnrelatedLabels(p);
      var l := labels[|labels| - 1];
      assert !IsContactLabel(l) && !IsCallLabel(l);
      assert ContactNames(labels) == ContactNames(p) + [];
      assert CallValues(labels) == CallValues(p) + [];
    }
  }

  /** A later contact label with items sets the contact name to its last
      item and changes nothing else. */
  lemma ReplyOfLaterContact(labels: seq<ReplyLabel>, l: ReplyLabel)
    requires IsContactLabel(l) && |l.nextItems| > 0
    ensures ReplyOf(labels + [l]) ==
      ReplyOf(labels).(contactName := Some(Trim(l.nextItems[|l.nextItems| - 1])))
  {
    CallValuesSnoc(labels, l);
    assert CallValues(labels + [l]) == CallValues(labels) + [] == CallValues(labels);
    LastContactOfLabel(labels, l);
  }

  /** The names under a later contact label come last, so its last item is
      the last contact name written. */
  lemma LastContactOfLabel(labels: seq<ReplyLabel>, l: ReplyLabel)
    requires IsContactLabel(l) && |l.nextItems| > 0
    ensures LastOf(ContactNames(labels + [l])) == Some(Trim(l.nextItems[|l.nextItems| - 1]))
  {
    var items := l.nextItems;
    var trimmed := Trimmed(items);
    assert ContactNames(labels + [l]) == ContactNames(labels) + trimmed by {
      ContactNamesSnoc(labels, l);
    }
    assert trimmed[|items| - 1] == Trim(items[|items| - 1]);
    LastOfAppend(ContactNames(labels), trimmed);
  }

  /** The last element of a concatenation with a non-empty second part is
      that part's last element. */
  lemma LastOfAppend(a: seq<string>, b: seq<string>)
    requires |b| > 0
    ensures LastOf(a + b) == Some(b[|b| - 1])
  {
  }

  /** A later label that is neither kind changes nothing. */
  lemma ReplyOfLaterUnrelated(labels: seq<ReplyLabel>, l: ReplyLabel)
    requires !IsContactLabel(l) && !IsCallLabel(l)
    ensures ReplyOf(labels + [l]) == ReplyOf(labels)
  {
    ContactNamesSnoc(labels, l);
    assert ContactNames(labels + [l]) == ContactNames(labels) + [] == ContactNames(labels);
    CallValuesSnoc(labels, l);
    assert CallValues(labels + [l]) == CallValues(labels) + [] == CallValues(labels);
  }

  /** One more label adds its contact names, if it is a contact label. */
  lemma ContactNamesSnoc(labels: seq<ReplyLabel>, l: ReplyLabel)
    ensures ContactNames(labels + [l]) ==
      ContactNames(labels) + (if IsContactLabel(l) then Trimmed(l.nextItems) else [])
  {
    assert (labels + [l])[..|labels|] == labels;
  }

  /** One more label adds its call values, if it is a call label. */
  lemma CallValuesSnoc(labels: seq<ReplyLabel>, l: ReplyLabel)
    ensures CallValues(labels + [l]) ==
      CallValues(labels) + (if IsCallLabel(l) then Trimmed(l.parentItems) else [])
  {
    assert (labels + [l])[..|labels|] == labels;
  }

  /** The values of a later call label come last, so a phone number in its
      last item is the last phone number written. */
  lemma LastPhoneOfCallLabel(labels: seq<ReplyLabel>, l: ReplyLabel)
    requires IsCallLabel(l) && |l.parentItems| > 0
    requires ItemPhone(Trim(l.parentItems[|l.parentItems| - 1])).Some?
    ensures LastSome(CallValues(labels + [l]), ItemPhone) == ItemPhone(Trim(l.parentItems[|l.parentItems| - 1]))
  {
    var items := l.parentItems;
    var n := |items|;
    var last := Trim(items[n - 1]);
    assert CallValues(labels + [l]) == CallValues(labels) + Trimmed(items) by {
      CallValuesSnoc(labels, l);
    }
    TrimmedSnoc(items, n - 1);
    assert items[..n] == items;
    var before := CallValues(labels) + Trimmed(items[..n - 1]);
    AppendAssoc(CallValues(labels), Trimmed(items[..n - 1]), [last]);
    LastSomeSnoc(before, last, ItemPhone);
  }

  /** A later call label whose last item carries the telephone sign sets the
      phone number from that item, and leaves the contact name alone. */
  lemma ReplyOfLaterPhone(labels: seq<ReplyLabel>, l: ReplyLabel)
    requires IsCallLabel(l) && |l.parentItems| > 0
    requires Contains(Trim(l.parentItems[|l.parentItems| - 1]), Literal([Telephone]))
    ensures ReplyOf(labels + [l]).phoneNumber ==
      Some(PhoneNumberOf(Trim(l.parentItems[|l.parentItems| - 1])))
    ensures ReplyOf(labels + [l]).contactName == ReplyOf(labels).contactName
  {
    LastPhoneOfCallLabel(labels, l);
    ContactNamesSnoc(labels, l);
    assert ContactNames(labels + [l]) == ContactNames(labels) + [] == ContactNames(labels);
  }

  /** The inner `each` over the items under a contact label: every item
      overwrites the contact name. */
  method ReadContactItems(items: seq<string>, ghost names: seq<string>, contactName: Option<string>)
    returns (contactName': Option<string>)
    requires contactName == LastOf(names)
    ensures contactName' == LastOf(names + Trimmed(items))
  {
    contactName' := contactName;
    assert names + Trimmed(items[..0]) == names;
    for j := 0 to |items|
      invariant contactName' == LastOf(names + Trimmed(items[..j]))
    {
      TrimmedSnoc(items, j);
      AppendAssoc(names, Trimmed(items[..j]), [Trim(items[j])]);
      contactName' := Some(Trim(items[j]));
    }
    assert items[..|items|] == items;
  }

  /** The inner `each` over the items under the parent of a call label: an
      item with the telephone sign overwrites the phone number, any other
      item with an '@' overwrites the email. */
  method ReadCallItems(items: seq<string>, ghost values: seq<string>,
                       email: Option<string>, phoneNumber: Option<string>)
    returns (email': Option<string>, phoneNumber': Option<string>)
    requires email == LastSome(values, ItemEmail)
    requires phoneNumber == LastSome(values, ItemPhone)
    ensures email' == LastSome(values + Trimmed(items), ItemEmail)
    ensures phoneNumber' == LastSome(values + Trimmed(items), ItemPhone)
  {
    email', phoneNumber' := email, phoneNumber;
    assert values + Trimmed(items[..0]) == values;
    for j := 0 to |items|
      invariant email' == LastSome(values + Trimmed(items[..j]), ItemEmail)
      invariant phoneNumber' == LastSome(values + Trimmed(items[..j]), ItemPhone)
    {
      var value := Trim(items[j]);
      ghost var seen := values + Trimmed(items[..j]);
      assert values + Trimmed(items[..j + 1]) == seen + [value] by {
        TrimmedSnoc(items, j);
        AppendAssoc(values, Trimmed(items[..j]), [value]);
      }
      LastSomeSnoc(seen, value, ItemEmail);
      LastSomeSnoc(seen, value, ItemPhone);
      if Contains(value, Literal([Telephone])) {
        phoneNumber' := Some(PhoneNumberOf(value));
        continue;
      }
      if Contains(value, Literal("@")) {
        email' := Some(value);
      }
    }
    assert items[..|items|] == items;
  }

  /** `_getReplyDetails`: the `each` over the labels; a contact label is
      handled first and stops there, then a call label. */
  method GetReplyDetails(labels: seq<ReplyLabel>) returns (d: ReplyDetails)
    ensures d == ReplyOf(labels)
  {
    var contactName: Option<string> := None;
    var email: Option<string> := None;
    var phoneNumber: Option<string> := None;

    for i := 0 to |labels|
      invariant contactName == LastOf(ContactNames(labels[..i]))
      invariant email == LastSome(CallValues(labels[..i]), ItemEmail)
      invariant phoneNumber == LastSome(CallValues(labels[..i]), ItemPhone)
    {
      var l := labels[i];
      assert labels[..i + 1][..i] == labels[..i];
      ghost var names := ContactNames(labels[..i]);
      ghost var values := CallValues(labels[..i]);
      var infoType := Trim(l.text);

      if Contains(infoType, ContactNamePattern()) {
        contactName := ReadContactItems(l.nextItems, names, contactName);
        assert CallValues(labels[..i + 1]) == values + [] == values;
        continue;
      }

      if Contains(infoType, Caseless("call")) {
        email, phoneNumber := ReadCallItems(l.parentItems, values, email, phoneNumber);
        assert ContactNames(labels[..i + 1]) == names + [] == names;
        continue;
      }

      assert ContactNames(labels[..i + 1]) == names + [] == names;
      assert CallValues(labels[..i + 1]) == values + [] == values;
    }
    assert labels[..|labels|] == labels;
    d := ReplyDetails(email, phoneNumber, contactName);
  }
}

=== FILE: request.dfy ===
/** The search-request builder `_getRequestOptions` (src/client.ts): from
    the client's options and the caller's options it derives the hostname,
    the path with its query string, the optional cache-busting headers and
    the option keys passed through unchanged. */
module SearchRequest {
  import opened Wrappers
  import opened Strings
  import opened JsValues
  import opened Validation

  const DefaultBaseHost: string := "craigslist.org"
  const DefaultCategory: string := "sss"
  const DefaultNoCache: string := "no-cache"
  const DefaultPath: string := "/search/"
  const DefaultQuerystring: string := "?sort=rel"
  const HeaderCacheControl: string := "Cache-Control"
  const HeaderPragma: string := "Pragma"

  const QueryKeys: seq<string> := [
    "bundleDuplicates", "category", "hasImage", "hasPic", "max_price", "min_price", "offset",
    "postal", "postedToday", "query", "searchDistance", "searchNearby", "searchTitlesOnly",
    "srcType"]

  const QueryParamAutoMakeModel: string := "&auto_make_model="
  const QueryParamBundleDuplicates: string := "&bundleDuplicates=1"
  const QueryParamDogsOk: string := "&pets_dog=1"
  const QueryParamHasImage: string := "&hasPic=1"
  const QueryParamMax: string := "&max_price="
  const QueryParamMaxBathrooms: string := "&max_bathrooms="
  const QueryParamMaxBedrooms: string := "&max_bedrooms="
  const QueryParamMaxMiles: string := "&max_auto_miles="
  const QueryParamMaxSqft: string := "&max_Sqft="
  const QueryParamMaxYear: string := "&max_auto_year="
  const QueryParamMin: string := "&min_price="
  const QueryParamMinBathrooms: string := "&min_bathrooms="
  const QueryParamMinBedrooms: string := "&min_bedrooms="
  const QueryParamMinMiles: string := "&min_auto_miles="
  const QueryParamMinSqft: string := "&min_Sqft="
  const QueryParamMinYear: string := "&min_auto_year="
  const QueryParamOffset: string := "&s="
  const QueryParamPostal: string := "&postal="
  const QueryParamPostedToday: string := "&postedToday=1"
  const QueryParamQuery: string := "&query="
  const QueryParamSearchDistance: string := "&search_distance="
  const QueryParamSearchNearby: string := "&searchNearby=1"
  const QueryParamSearchTitlesOnly: string := "&srchType=T"

  /** The caller's options object (a `ClientOpts`), as a map from its own
      keys to their values. `search` rewrites its category in place. */
  class Options {
    var props: map<string, JsValue>

    constructor (props: map<string, JsValue>)
      ensures this.props == props
    {
      this.props := props;
    }
  }

  /** The object `_getRequestOptions` returns: the three defaulted
      properties, the headers once created, and the caller's option keys it
      copied across (`passThrough`). */
  datatype RequestOptions = RequestOptions(
    hostname: string,
    path: string,
    secure: bool,
    headers: Option<map<string, string>>,
    passThrough: map<string, JsValue>)

  /** `DEFAULT_REQUEST_OPTIONS`, of which each call starts from a fresh copy. */
  const DefaultRequestOptions: RequestOptions := RequestOptions("", "", true, None, map[])

  /** Reading the property `key` of a request-options object. */
  function Property(r: RequestOptions, key: string): JsValue {
    if key == "hostname" then Str(r.hostname)
    else if key == "path" then Str(r.path)
    else if key == "secure" then Bool(r.secure)
    else if key == "headers" then
      (if r.headers.Some? then Obj(r.headers.value.Keys, PlainObjectText) else Undefined)
    else Get(r.passThrough, key)
  }

  /** `Array.prototype.indexOf` over strings: the first index of `key`, or -1. */
  function IndexOfKey(keys: seq<string>, key: string): (i: int)
    ensures -1 <= i < |keys|
    ensures i >= 0 ==> keys[i] == key && forall j :: 0 <= j < i ==> keys[j] != key
    ensures i == -1 ==> key !in keys
    decreases |keys|
  {
    if |keys| == 0 then -1
    else if keys[0] == key then 0
    else
      var j := IndexOfKey(keys[1..], key);
      if j < 0 then -1 else j + 1
  }

  /** The guard `!QUERY_KEYS.indexOf(key)` is true only for index 0: of all
      option keys, only "bundleDuplicates" can pass through. */
  lemma PassThroughGuard(key: string)
    ensures IndexOfKey(QueryKeys, key) == 0 <==> key == "bundleDuplicates"
  {
  }

  // ---------------------------------------------------------------- hostname

  /** The first label of the hostname: the coalesced city, or "" when no
      city is given anywhere. */
  function CityPart(clientOptions: map<string, JsValue>, props: map<string, JsValue>): string {
    JoinText(Coalesce([Get(props, "city"), Get(clientOptions, "city"), Str("")]))
  }

  /** The domain after the first dot: the coalesced base host. */
  function BaseHostPart(clientOptions: map<string, JsValue>, props: map<string, JsValue>): string {
    JoinText(Coalesce([Get(props, "baseHost"), Get(clientOptions, "baseHost"), Str(DefaultBaseHost)]))
  }

  function Hostname(clientOptions: map<string, JsValue>, props: map<string, JsValue>): string {
    JoinWith([CityPart(clientOptions, props), BaseHostPart(clientOptions, props)], ".")
  }

  /** The hostname is always city, dot, base host; so it is never empty and
      the "unable to set hostname" error of `search` cannot be raised. */
  lemma HostnameNeverEmpty(clientOptions: map<string, JsValue>, props: map<string, JsValue>)
    ensures Hostname(clientOptions, props) ==
            CityPart(clientOptions, props) + "." + BaseHostPart(clientOptions, props)
    ensures !IsEmpty(Str(Hostname(clientOptions, props)))
  {
    JoinTwo(CityPart(clientOptions, props), BaseHostPart(clientOptions, props), ".");
    IsEmptyCases(Str(Hostname(clientOptions, props)));
  }

  /** A per-call city beats the constructor's; without any city the hostname
      starts with the dot. */
  lemma CityPrecedence(clientOptions: map<string, JsValue>, props: map<string, JsValue>)
    ensures CityPart(clientOptions, props) ==
      if !IsEmpty(Get(props, "city")) then JoinText(Get(props, "city"))
      else if !IsEmpty(Get(clientOptions, "city")) then JoinText(Get(clientOptions, "city"))
      else ""
  {
    CoalescePrecedence(Get(props, "city"), Get(clientOptions, "city"), Str(""));
  }

  /** A per-call base host beats the constructor's, which beats "craigslist.org". */
  lemma BaseHostPrecedence(clientOptions: map<string, JsValue>, props: map<string, JsValue>)
    ensures BaseHostPart(clientOptions, props) ==
      if !IsEmpty(Get(props, "baseHost")) then JoinText(Get(props, "baseHost"))
      else if !IsEmpty(Get(clientOptions, "baseHost")) then JoinText(Get(clientOptions, "baseHost"))
      else DefaultBaseHost
  {
    CoalescePrecedence(Get(props, "baseHost"), Get(clientOptions, "baseHost"), Str(DefaultBaseHost));
  }

  /** With no city and no base host anywhere the hostname is ".craigslist.org". */
  lemma HostnameWithoutCity(clientOptions: map<string, JsValue>, props: map<string, JsValue>)
    requires IsEmpty(Get(props, "city")) && IsEmpty(Get(clientOptions, "city"))
    requires IsEmpty(Get(props, "baseHost")) && IsEmpty(Get(clientOptions, "baseHost"))
    ensures Hostname(clientOptions, props) == "." + DefaultBaseHost
  {
    CityPrecedence(clientOptions, props);
    BaseHostPrecedence(clientOptions, props);
    var city, base := CityPart(clientOptions, props), BaseHostPart(clientOptions, props);
    assert city == "" && base == DefaultBaseHost;
    JoinTwo(city, base, ".");
    assert city + "." == ".";
  }

  // ---------------------------------------------------------------- path

  /** One query-string parameter of the search path. */
  datatype Param =
      /** `fragment`, when any of `keys` holds a truthy value. */
    | Flag(keys: seq<string>, fragment: string)
      /** `prefix` and the value, when the value is not empty. */
    | Valued(key: string, prefix: string)
      /** `prefix` and the value, when the value is truthy. */
    | Counted(key: string, prefix: string)

  /** The parameters after the free-text query, each with the guard the
      source tests before appending it. */
  const ParamBundleDuplicates: Param := Flag(["bundleDuplicates"], QueryParamBundleDuplicates)
  const ParamHasImage: Param := Flag(["hasImage", "hasPic"], QueryParamHasImage)
  const ParamMinPrice: Param := Valued("minPrice", QueryParamMin)
  const ParamMaxPrice: Param := Valued("maxPrice", QueryParamMax)
  const ParamMinYear: Param := Valued("minYear", QueryParamMinYear)
  const ParamMaxYear: Param := Valued("maxYear", QueryParamMaxYear)
  const ParamMinMiles: Param := Valued("minMiles", QueryParamMinMiles)
  const ParamMaxMiles: Param := Valued("maxMiles", QueryParamMaxMiles)
  const ParamAutoMakeModel: Param := Valued("autoMakeModel", QueryParamAutoMakeModel)
  const ParamPostal: Param := Valued("postal", QueryParamPostal)
  const ParamPostedToday: Param := Flag(["postedToday"], QueryParamPostedToday)
  const ParamSearchDistance: Param := Valued("searchDistance", QueryParamSearchDistance)
  const ParamSearchNearby: Param := Flag(["searchNearby"], QueryParamSearchNearby)
  const ParamSearchTitlesOnly: Param := Flag(["searchTitlesOnly"], QueryParamSearchTitlesOnly)
  const ParamMaxBedrooms: Param := Valued("maxBedrooms", QueryParamMaxBedrooms)
  const ParamMinBedrooms: Param := Valued("minBedrooms", QueryParamMinBedrooms)
  const ParamMaxBathrooms: Param := Valued("maxBathrooms", QueryParamMaxBathrooms)
  const ParamMinBathrooms: Param := Valued("minBathrooms", QueryParamMinBathrooms)
  const ParamMaxSqft: Param := Valued("maxSqft", QueryParamMaxSqft)
  const ParamMinSqft: Param := Valued("minSqft", QueryParamMinSqft)
  const ParamDogsOk: Param := Flag(["dogsOk"], QueryParamDogsOk)
  const ParamOffset: Param := Counted("offset", QueryParamOffset)

  /** Whether any of `keys` holds a truthy value (`a || b`). */
  predicate AnyTruthy(props: map<string, JsValue>, keys: seq<string>)
    decreases |keys|
  {
    |keys| > 0 && (Truthy(Get(props, keys[0])) || AnyTruthy(props, keys[1..]))
  }

  /** The text one parameter contributes to the path. */
  function Fragment(props: map<string, JsValue>, p: Param): string {
    match p
    case Flag(keys, text) =>
      if AnyTruthy(props, keys) then text else ""
    case Valued(key, prefix) =>
      if !IsEmpty(Get(props, key)) then prefix + JoinText(Get(props, key)) else ""
    case Counted(key, prefix) =>
      if Truthy(Get(props, key)) then prefix + JoinText(Get(props, key)) else ""
  }

  /** Everything the search parameters add to the path: their fragments in
      the fixed order in which the source appends them. */
  function ParamsFragments(props: map<string, JsValue>): string {
    Fragment(props, ParamBundleDuplicates)
    + Fragment(props, ParamHasImage)
    + Fragment(props, ParamMinPrice)
    + Fragment(props, ParamMaxPrice)
    + Fragment(props, ParamMinYear)
    + Fragment(props, ParamMaxYear)
    + Fragment(props, ParamMinMiles)
    + Fragment(props, ParamMaxMiles)
    + Fragment(props, ParamAutoMakeModel)
    + Fragment(props, ParamPostal)
    + Fragment(props, ParamPostedToday)
    + Fragment(props, ParamSearchDistance)
    + Fragment(props, ParamSearchNearby)
    + Fragment(props, ParamSearchTitlesOnly)
    + Fragment(props, ParamMaxBedrooms)
    + Fragment(props, ParamMinBedrooms)
    + Fragment(props, ParamMaxBathrooms)
    + Fragment(props, ParamMinBathrooms)
    + Fragment(props, ParamMaxSqft)
    + Fragment(props, ParamMinSqft)
    + Fragment(props, ParamDogsOk)
    + Fragment(props, ParamOffset)
  }

  /** The keys a parameter reads. */
  function ParamKeys(p: Param): seq<string> {
    if p.Flag? then p.keys else [p.key]
  }

  /** The free-text query, URI-encoded, when it is not empty. */
  function QueryFragment(query: JsValue, encode: string -> string): string {
    if !IsEmpty(query) then QueryParamQuery + encode(ToJsString(query)) else ""
  }

  /** The search path up to the query string's fixed sort parameter. */
  function PathPrefix(props: map<string, JsValue>): string {
    DefaultPath + JoinText(Coalesce([Get(props, "category"), Str(DefaultCategory)])) + DefaultQuerystring
  }

  /** The path of the search request. */
  function SearchPath(props: map<string, JsValue>, query: JsValue, encode: string -> string): string {
    PathPrefix(props) + QueryFragment(query, encode) + ParamsFragments(props)
  }

  /** The headers: both cache-busting headers when `nocache` is truthy, none otherwise. */
  function NoCacheHeaders(props: map<string, JsValue>): Option<map<string, string>> {
    if Truthy(Get(props, "nocache"))
    then Some(map[HeaderCacheControl := DefaultNoCache, HeaderPragma := DefaultNoCache])
    else None
  }

  /** The option keys copied onto the request: only "bundleDuplicates". */
  function PassThrough(props: map<string, JsValue>): map<string, JsValue> {
    if "bundleDuplicates" in props then map["bundleDuplicates" := props["bundleDuplicates"]] else map[]
  }

  /** A parameter none of whose keys is among the options contributes nothing. */
  lemma FragmentAbsent(props: map<string, JsValue>, p: Param)
    requires forall k :: k in ParamKeys(p) ==> k !in props
    ensures Fragment(props, p) == ""
  {
    if p.Flag? {
      NoneTruthy(props, p.keys);
    } else {
      assert p.key in ParamKeys(p);
    }
  }

  lemma {:induction false} NoneTruthy(props: map<string, JsValue>, keys: seq<string>)
    requires forall k :: k in keys ==> k !in props
    ensures !AnyTruthy(props, keys)
    decreases |keys|
  {
    if |keys| > 0 {
      NoneTruthy(props, keys[1..]);
    }
  }

  /** A valued parameter set to an integer, `0` included, contributes its
      prefix and the integer's decimal digits. */
  lemma ValuedInteger(props: map<string, JsValue>, key: string, prefix: string, n: int)
    requires Get(props, key) == Num(n)
    ensures Fragment(props, Valued(key, prefix)) == prefix + IntToDecimal(n)
  {
    IsEmptyCases(Num(n));
    assert JoinText(Num(n)) == IntToDecimal(n);
  }

  /** Without any option and query the path is "/search/sss?sort=rel". */
  lemma DefaultPathOnly(query: JsValue, encode: string -> string)
    requires IsEmpty(query)
    ensures SearchPath(map[], query, encode) == DefaultPath + DefaultCategory + DefaultQuerystring
  {
    IsEmptyCases(Str(DefaultCategory));
    CoalesceFirstNonEmpty([Undefined, Str(DefaultCategory)], 1);
    assert PathPrefix(map[]) == DefaultPath + DefaultCategory + DefaultQuerystring;
    NoParamsFragments();
    assert SearchPath(map[], query, encode) == PathPrefix(map[]) + "" + "";
  }

  /** Without options no search parameter is appended. */
  lemma NoParamsFragments()
    ensures ParamsFragments(map[]) == ""
  {
    forall p: Param ensures Fragment(map[], p) == "" {
      if p.Flag? {
        NoneTruthy(map[], p.keys);
      }
    }
  }

  /** The test the builder makes before appending a parameter: truthiness
      for the flags and the offset, non-emptiness for the valued fields. */
  predicate Guard(props: map<string, JsValue>, p: Param) {
    match p
    case Flag(keys, _) => AnyTruthy(props, keys)
    case Valued(key, _) => !IsEmpty(Get(props, key))
    case Counted(key, _) => Truthy(Get(props, key))
  }

  /** The text a parameter's fragment starts with. */
  function Lead(p: Param): string {
    if p.Flag? then p.fragment else p.prefix
  }

  /** A parameter is present in the path exactly when its guard holds, and
      its fragment then starts with its text. */
  lemma FragmentIff(props: map<string, JsValue>, p: Param)
    requires Lead(p) != ""
    ensures Fragment(props, p) != "" <==> Guard(props, p)
    ensures Guard(props, p) ==> Lead(p) <= Fragment(props, p)
  {
  }

  /** `hasImage` and `hasPic` share one parameter: either being truthy
      adds "&hasPic=1" once, and neither adds nothing. */
  lemma HasPicOnce(props: map<string, JsValue>)
    ensures Fragment(props, ParamHasImage) ==
      if Truthy(Get(props, "hasImage")) || Truthy(Get(props, "hasPic")) then "&hasPic=1" else ""
  {
    var keys := ["hasImage", "hasPic"];
    assert keys[1..] == ["hasPic"] && keys[1..][1..] == [];
    assert AnyTruthy(props, keys[1..]) <==> Truthy(Get(props, "hasPic"));
  }

  // ---------------------------------------------------------------- builder

  /** `_getRequestOptions`: the request a search issues. */
  method GetRequestOptions(clientOptions: map<string, JsValue>, options: Options, query: JsValue,
                           encode: string -> string)
    returns (r: RequestOptions)
    ensures r.hostname == Hostname(clientOptions, options.props)
    ensures r.path == SearchPath(options.props, query, encode)
    ensures r.secure
    ensures r.headers == NoCacheHeaders(options.props)
    ensures r.passThrough == PassThrough(options.props)
  {
    var props := options.props;
    r := DefaultRequestOptions;
    r := r.(hostname := JoinWith([
      JoinText(Coalesce([Get(props, "city"), Get(clientOptions, "city"), Str("")])),
      JoinText(Coalesce([Get(props, "baseHost"), Get(clientOptions, "baseHost"), Str(DefaultBaseHost)]))],
      "."));

    JoinTwo(CityPart(clientOptions, props), BaseHostPart(clientOptions, props), ".");
    r := PreserveOptionKeys(props, r);

    var path := BuildPath(props, query, encode, r.path);
    r := r.(path := path);

    if Truthy(Get(props, "nocache")) {
      var headers := r.headers.GetOr(map[]);
      headers := headers[HeaderCacheControl := DefaultNoCache];
      headers := headers[HeaderPragma := DefaultNoCache];
      r := r.(headers := Some(headers));
    }
  }

  /** The path steps of the builder, from the request's (empty) path on:
      the default path, the category and the fixed sort parameter, then the
      query and the search parameters. */
  method BuildPath(props: map<string, JsValue>, query: JsValue, encode: string -> string, start: string)
    returns (path: string)
    requires start == DefaultRequestOptions.path
    ensures path == SearchPath(props, query, encode)
  {
    path := SetupCategory(props, start);
    path := AppendQuery(path, query, encode);
    path := AppendSearchParams(props, path);
  }

  /** The search query step: the query parameter and the URI-encoded query,
      when the query is not empty. */
  method AppendQuery(path: string, query: JsValue, encode: string -> string) returns (path': string)
    ensures path' == path + QueryFragment(query, encode)
  {
    path' := path;
    if !IsEmpty(query) {
      path' := path' + QueryParamQuery + encode(ToJsString(query));
      AppendAssoc(path, QueryParamQuery, encode(ToJsString(query)));
    }
  }

  /** The default path when none is set, the category (the caller's or
      "sss") and the fixed sort parameter. */
  method SetupCategory(props: map<string, JsValue>, start: string) returns (path: string)
    requires start == DefaultRequestOptions.path
    ensures path == PathPrefix(props)
  {
    path := start;
    IsEmptyCases(Str(path));
    if IsEmpty(Str(path)) {
      path := DefaultPath;
    }
    assert path == DefaultPath;
    var category := Coalesce([Get(props, "category"), Str(DefaultCategory)]);
    JoinTwo(path, JoinText(category), "");
    path := JoinWith([path, JoinText(category)], "");
    JoinTwo(path, DefaultQuerystring, "");
    path := JoinWith([path, DefaultQuerystring], "");
  }

  /** The `forEach` over the caller's option keys, copying a key when it
      passes `!QUERY_KEYS.indexOf(key)` and neither the request built so far
      nor the defaults set it. Only "bundleDuplicates" passes the first test,
      and it is none of the four declared properties. */
  method PreserveOptionKeys(props: map<string, JsValue>, start: RequestOptions) returns (r: RequestOptions)
    requires start.passThrough == map[]
    ensures r == start.(passThrough := PassThrough(props))
  {
    r := start;
    var remaining := props.Keys;
    while remaining != {}
      invariant remaining <= props.Keys
      invariant r == start.(passThrough :=
        if "bundleDuplicates" in props && "bundleDuplicates" !in remaining
        then map["bundleDuplicates" := props["bundleDuplicates"]] else map[])
      decreases remaining
    {
      var key :| key in remaining;
      if IndexOfKey(QueryKeys, key) == 0 && IsEmpty(Property(r, key))
         && IsEmpty(Property(DefaultRequestOptions, key))
      {
        r := r.(passThrough := r.passThrough[key := props[key]]);
      }
      remaining := remaining - {key};
    }
  }

  /** The guarded appends after the free-text query (the source's lines
      for bundleDuplicates through offset). */
  method AppendSearchParams(props: map<string, JsValue>, path: string) returns (path': string)
    ensures path' == path + ParamsFragments(props)
  {
    path' := AppendParam(props, path, ParamBundleDuplicates);
    ghost var done := Fragment(props, ParamBundleDuplicates);
    path' := AppendParam(props, path', ParamHasImage);
    AppendAssoc(path, done, Fragment(props, ParamHasImage));
    done := done + Fragment(props, ParamHasImage);
    path' := AppendParam(props, path', ParamMinPrice);
    AppendAssoc(path, done, Fragment(props, ParamMinPrice));
    done := done + Fragment(props, ParamMinPrice);
    path' := AppendParam(props, path', ParamMaxPrice);
    AppendAssoc(path, done, Fragment(props, ParamMaxPrice));
    done := done + Fragment(props, ParamMaxPrice);
    path' := AppendParam(props, path', ParamMinYear);
    AppendAssoc(path, done, Fragment(props, ParamMinYear));
    done := done + Fragment(props, ParamMinYear);
    path' := AppendParam(props, path', ParamMaxYear);
    AppendAssoc(path, done, Fragment(props, ParamMaxYear));
    done := done + Fragment(props, ParamMaxYear);
    path' := AppendParam(props, path', ParamMinMiles);
    AppendAssoc(path, done, Fragment(props, ParamMinMiles));
    done := done + Fragment(props, ParamMinMiles);
    path' := AppendParam(props, path', ParamMaxMiles);
    AppendAssoc(path, done, Fragment(props, ParamMaxMiles));
    done := done + Fragment(props, ParamMaxMiles);
    path' := AppendParam(props, path', ParamAutoMakeModel);
    AppendAssoc(path, done, Fragment(props, ParamAutoMakeModel));
    done := done + Fragment(props, ParamAutoMakeModel);
    path' := AppendParam(props, path', ParamPostal);
    AppendAssoc(path, done, Fragment(props, ParamPostal));
    done := done + Fragment(props, ParamPostal);
    path' := AppendParam(props, path', ParamPostedToday);
    AppendAssoc(path, done, Fragment(props, ParamPostedToday));
    done := done + Fragment(props, ParamPostedToday);
    path' := AppendParam(props, path', ParamSearchDistance);
    AppendAssoc(path, done, Fragment(props, ParamSearchDistance));
    done := done + Fragment(props, ParamSearchDistance);
    path' := AppendParam(props, path', ParamSearchNearby);
    AppendAssoc(path, done, Fragment(props, ParamSearchNearby));
    done := done + Fragment(props, ParamSearchNearby);
    path' := AppendParam(props, path', ParamSearchTitlesOnly);
    AppendAssoc(path, done, Fragment(props, ParamSearchTitlesOnly));
    done := done + Fragment(props, ParamSearchTitlesOnly);
    path' := AppendParam(props, path', ParamMaxBedrooms);
    AppendAssoc(path, done, Fragment(props, ParamMaxBedrooms));
    done := done + Fragment(props, ParamMaxBedrooms);
    path' := AppendParam(props, path', ParamMinBedrooms);
    AppendAssoc(path, done, Fragment(props, ParamMinBedrooms));
    done := done + Fragment(props, ParamMinBedrooms);
    path' := AppendParam(props, path', ParamMaxBathrooms);
    AppendAssoc(path, done, Fragment(props, ParamMaxBathrooms));
    done := done + Fragment(props, ParamMaxBathrooms);
    path' := AppendParam(props, path', ParamMinBathrooms);
    AppendAssoc(path, done, Fragment(props, ParamMinBathrooms));
    done := done + Fragment(props, ParamMinBathrooms);
    path' := AppendParam(props, path', ParamMaxSqft);
    AppendAssoc(path, done, Fragment(props, ParamMaxSqft));
    done := done + Fragment(props, ParamMaxSqft);
    path' := AppendParam(props, path', ParamMinSqft);
    AppendAssoc(path, done, Fragment(props, ParamMinSqft));
    done := done + Fragment(props, ParamMinSqft);
    path' := AppendParam(props, path', ParamDogsOk);
    AppendAssoc(path, done, Fragment(props, ParamDogsOk));
    done := done + Fragment(props, ParamDogsOk);
    path' := AppendParam(props, path', ParamOffset);
    AppendAssoc(path, done, Fragment(props, ParamOffset));
    done := done + Fragment(props, ParamOffset);
  }

  /** One `if` of the builder: appends the parameter's text when its guard holds. */
  method AppendParam(props: map<string, JsValue>, path: string, p: Param) returns (path': string)
    ensures path' == path + Fragment(props, p)
  {
    path' := path;
    match p {
      case Flag(keys, text) =>
        if AnyTruthy(props, keys) {
          path' := path' + text;
        }
      case Valued(key, prefix) =>
        if !IsEmpty(Get(props, key)) {
          path' := path' + prefix + JoinText(Get(props, key));
        }
      case Counted(key, prefix) =>
        if Truthy(Get(props, key)) {
          path' := path' + prefix + JoinText(Get(props, key));
        }
    }
  }
}

=== FILE: strings.dfy ===
/** The pieces of JavaScript's string semantics the scraper relies on:
    `trim`, `indexOf`, `split`, the regular expressions it tests (all of them
    plain literals, the class `\s` and, for `/i`, ASCII case folding) and the
    decimal rendering of integers. */
module Strings {

  /** JavaScript's WhiteSpace and LineTerminator characters: what the class
      `\s` matches and what `String.prototype.trim` removes. */
  predicate IsSpace(c: char) {
    || c == '\t' || c == '\n' || c == '\U{B}' || c == '\U{C}' || c == '\r' || c == ' '
    || c == '\U{A0}' || c == '\U{1680}' || ('\U{2000}' <= c <= '\U{200A}')
    || c == '\U{2028}' || c == '\U{2029}' || c == '\U{202F}' || c == '\U{205F}'
    || c == '\U{3000}' || c == '\U{FEFF}'
  }

  predicate IsDigit(c: char) {
    '0' <= c <= '9'
  }

  predicate AllSpace(s: string) {
    forall i :: 0 <= i < |s| ==> IsSpace(s[i])
  }

  /** A string that `trim` leaves unchanged: empty, or without white space at
      either end. */
  predicate IsTrimmed(s: string) {
    s == [] || (!IsSpace(s[0]) && !IsSpace(s[|s| - 1]))
  }

  /** ASCII case folding. A regular expression with the `i` flag and without
      the `u` flag never folds a non-ASCII character onto an ASCII one, so for
      the ASCII-letter patterns of the scraper this is exactly its matching. */
  function LowerAscii(c: char): char {
    if 'A' <= c <= 'Z' then (c as int + 32) as char else c
  }

  // ---------------------------------------------------------------- trim

  function TrimStart(s: string): string
    decreases |s|
  {
    if |s| > 0 && IsSpace(s[0]) then TrimStart(s[1..]) else s
  }

  /** `TrimStart` removes a prefix of white space and stops at the first
      other character. */
  lemma {:induction false} TrimStartFacts(s: string)
    ensures var r := TrimStart(s);
      && |r| <= |s| && r == s[|s| - |r|..]
      && (r == [] || !IsSpace(r[0]))
      && AllSpace(s[..|s| - |r|])
    decreases |s|
  {
    if |s| > 0 && IsSpace(s[0]) {
      TrimStartFacts(s[1..]);
      var r := TrimStart(s);
      assert s[1..][|s| - 1 - |r|..] == s[|s| - |r|..];
      forall i | 0 <= i < |s| - |r| ensures IsSpace(s[i]) {
        if i > 0 {
          assert s[1..][..|s| - 1 - |r|][i - 1] == s[i];
        }
      }
    }
  }

  function TrimEnd(s: string): string
    decreases |s|
  {
    if |s| > 0 && IsSpace(s[|s| - 1]) then TrimEnd(s[..|s| - 1]) else s
  }

  /** `TrimEnd` removes a suffix of white space and stops at the last other
      character. */
  lemma {:induction false} TrimEndFacts(s: string)
    ensures var r := TrimEnd(s);
      && |r| <= |s| && r == s[..|r|]
      && (r == [] || !IsSpace(r[|r| - 1]))
      && AllSpace(s[|r|..])
    decreases |s|
  {
    if |s| > 0 && IsSpace(s[|s| - 1]) {
      TrimEndFacts(s[..|s| - 1]);
      var r := TrimEnd(s);
      assert s[..|s| - 1][..|r|] == s[..|r|];
      forall i | |r| <= i < |s| ensures IsSpace(s[i]) {
        if i < |s| - 1 {
          assert s[..|s| - 1][|r|..][i - |r|] == s[i];
        }
      }
    }
  }

  /** `String.prototype.trim`. */
  function Trim(s: string): (r: string)
    ensures IsTrimmed(r)
  {
    TrimStartFacts(s);
    TrimEndFacts(TrimStart(s));
    var r := TrimEnd(TrimStart(s));
    assert r != [] ==> r[0] == TrimStart(s)[0];
    r
  }

  lemma {:induction false} TrimStartPadded(a: string, m: string)
    requires AllSpace(a)
    requires m == [] || !IsSpace(m[0])
    ensures TrimStart(a + m) == m
    decreases |a|
  {
    if |a| > 0 {
      assert (a + m)[1..] == a[1..] + m;
      TrimStartPadded(a[1..], m);
    } else {
      assert a + m == m;
    }
  }

  lemma {:induction false} TrimEndPadded(m: string, b: string)
    requires AllSpace(b)
    requires m == [] || !IsSpace(m[|m| - 1])
    ensures TrimEnd(m + b) == m
    decreases |b|
  {
    if |b| > 0 {
      assert (m + b)[..|m + b| - 1] == m + b[..|b| - 1];
      TrimEndPadded(m, b[..|b| - 1]);
    } else {
      assert m + b == m;
    }
  }

  /** `trim` removes exactly the white space around a trimmed core: the
      partner of `Trim`'s own contract, which says the result is trimmed. */
  lemma TrimPadded(a: string, m: string, b: string)
    requires AllSpace(a) && AllSpace(b) && IsTrimmed(m)
    ensures Trim(a + m + b) == m
  {
    if m == [] {
      assert a + m + b == a + b;
      assert AllSpace(a + b);
      TrimStartPadded(a + b, []);
      assert a + b + [] == a + b;
      TrimEndPadded([], []);
    } else {
      assert a + m + b == a + (m + b);
      TrimStartPadded(a, m + b);
      TrimEndPadded(m, b);
    }
  }

  // ---------------------------------------------------------------- patterns

  /** One position of a literal regular expression: a character matched
      exactly, an ASCII letter matched in either case, or `\s`. */
  datatype Atom = Exact(c: char) | Letter(lower: char) | Space

  predicate AtomMatches(a: Atom, c: char) {
    match a
    case Exact(p) => c == p
    case Letter(p) => LowerAscii(c) == p
    case Space => IsSpace(c)
  }

  /** The pattern that matches `t` literally and case-sensitively. */
  function Literal(t: string): (pat: seq<Atom>)
    ensures |pat| == |t| && forall k :: 0 <= k < |t| ==> pat[k] == Exact(t[k])
  {
    seq(|t|, k requires 0 <= k < |t| => Exact(t[k]))
  }

  /** The pattern that matches `t` as a regular expression with the `i` flag
      would: lower-case ASCII letters of `t` match in either case. */
  function Caseless(t: string): (pat: seq<Atom>)
    ensures |pat| == |t|
  {
    seq(|t|, k requires 0 <= k < |t| => if 'a' <= t[k] <= 'z' then Letter(t[k]) else Exact(t[k]))
  }

  predicate MatchesAt(s: string, i: int, pat: seq<Atom>) {
    0 <= i && i + |pat| <= |s| && forall k :: 0 <= k < |pat| ==> AtomMatches(pat[k], s[i + k])
  }

  lemma MatchesLiteral(s: string, i: int, t: string)
    ensures MatchesAt(s, i, Literal(t)) <==> 0 <= i && i + |t| <= |s| && s[i..i + |t|] == t
  {
    if 0 <= i && i + |t| <= |s| {
      if MatchesAt(s, i, Literal(t)) {
        forall k | 0 <= k < |t| ensures s[i..i + |t|][k] == t[k] {
          assert AtomMatches(Literal(t)[k], s[i + k]);
        }
      }
      if s[i..i + |t|] == t {
        forall k | 0 <= k < |t| ensures AtomMatches(Literal(t)[k], s[i + k]) {
          assert s[i..i + |t|][k] == s[i + k];
        }
      }
    }
  }

  function FindFrom(s: string, pat: seq<Atom>, from: nat): (r: int)
    ensures r == -1 || (from <= r && MatchesAt(s, r, pat))
    ensures forall i :: from <= i && (r == -1 || i < r) ==> !MatchesAt(s, i, pat)
    decreases |s| - from
  {
    if from + |pat| > |s| then -1
    else if MatchesAt(s, from, pat) then from
    else FindFrom(s, pat, from + 1)
  }

  /** The index of the leftmost match of `pat` in `s`, or -1: both
      `String.prototype.indexOf` (with a literal pattern) and
      `String.prototype.search` with a literal regular expression. */
  function Find(s: string, pat: seq<Atom>): (r: int)
    ensures r == -1 || MatchesAt(s, r, pat)
    ensures forall i :: (r == -1 || i < r) ==> !MatchesAt(s, i, pat)
  {
    FindFrom(s, pat, 0)
  }

  /** `RegExp.prototype.test` for a literal pattern. */
  predicate Contains(s: string, pat: seq<Atom>) {
    Find(s, pat) >= 0
  }

  function IndexOf(s: string, t: string): int {
    Find(s, Literal(t))
  }

  lemma MatchesInPrefix(s: string, n: nat, j: int, pat: seq<Atom>)
    requires n <= |s|
    requires MatchesAt(s[..n], j, pat)
    ensures MatchesAt(s, j, pat)
  {
    forall k | 0 <= k < |pat| ensures AtomMatches(pat[k], s[j + k]) {
      assert s[..n][j + k] == s[j + k];
    }
  }

  /** `String.prototype.split` with a separator that cannot match the empty
      string: the pieces between successive leftmost matches. */
  function SplitOn(s: string, pat: seq<Atom>): (parts: seq<string>)
    requires |pat| > 0
    ensures |parts| >= 1
    decreases |s|
  {
    var i := Find(s, pat);
    if i < 0 then [s]
    else [s[..i]] + SplitOn(s[i + |pat|..], pat)
  }

  /** `c` does not occur in `s`. */
  predicate Lacks(s: string, c: char) {
    forall k :: 0 <= k < |s| ==> s[k] != c
  }

  /** Splitting on a single character that does not occur in `s` leaves
      `s` whole. */
  lemma SplitOnCharNone(s: string, c: char)
    requires Lacks(s, c)
    ensures SplitOn(s, Literal([c])) == [s]
  {
    forall j | 0 <= j < |s| ensures !MatchesAt(s, j, Literal([c])) {
      assert Literal([c])[0] == Exact(c) && s[j] != c;
    }
  }

  /** Splitting on a single character that does not occur in `a`: the
      first piece is `a`. */
  lemma SplitOnCharFirst(a: string, c: char, b: string)
    requires Lacks(a, c)
    ensures SplitOn(a + [c] + b, Literal([c])) == [a] + SplitOn(b, Literal([c]))
  {
    var s := a + [c] + b;
    MatchesLiteral(s, |a|, [c]);
    assert s[|a|..|a| + 1] == [c];
    forall j | 0 <= j < |a| ensures !MatchesAt(s, j, Literal([c])) {
      assert Literal([c])[0] == Exact(c) && s[j] == a[j] && a[j] != c;
    }
    assert s[..|a|] == a && s[|a| + 1..] == b;
  }

  /** The second piece of a split on a single character is the text
      between its first and second occurrence, or up to the end. */
  lemma {:induction false} SplitOnCharSecond(a: string, b: string, rest: string, c: char)
    requires Lacks(a, c) && Lacks(b, c)
    requires rest == [] || rest[0] == c
    ensures var parts := SplitOn(a + [c] + b + rest, Literal([c])); |parts| > 1 && parts[1] == b
  {
    var t := b + rest;
    assert a + [c] + b + rest == a + [c] + t;
    SplitOnCharFirst(a, c, t);
    assert SplitOn(t, Literal([c]))[0] == b by {
      if rest == [] {
        assert t == b;
        SplitOnCharNone(b, c);
      } else {
        assert t == b + [c] + rest[1..];
        SplitOnCharFirst(b, c, rest[1..]);
      }
    }
  }

  /** `parts.join(sep)`. */
  function JoinWith(parts: seq<string>, sep: string): string
    decreases |parts|
  {
    if |parts| == 0 then ""
    else if |parts| == 1 then parts[0]
    else parts[0] + sep + JoinWith(parts[1..], sep)
  }

  /** Concatenation is associative. */
  lemma AppendAssoc<T>(a: seq<T>, b: seq<T>, c: seq<T>)
    ensures (a + b) + c == a + (b + c)
  {
  }

  lemma JoinTwo(a: string, b: string, sep: string)
    ensures JoinWith([a, b], sep) == a + sep + b
  {
    assert [a, b][1..] == [b];
  }

  // ---------------------------------------------------------------- decimals

  function DigitChar(d: int): (c: char)
    requires 0 <= d < 10
    ensures IsDigit(c)
  {
    ('0' as int + d) as char
  }

  predicate AllDigits(s: string) {
    forall k :: 0 <= k < |s| ==> IsDigit(s[k])
  }

  /** The value of a string of decimal digits. */
  function DecimalValue(s: string): nat
    requires AllDigits(s)
    decreases |s|
  {
    if s == [] then 0
    else DecimalValue(s[..|s| - 1]) * 10 + (s[|s| - 1] as int - '0' as int)
  }

  /** The decimal digits of `n` as JavaScript renders a non-negative integer
      below 10^21: no sign, no leading zero. */
  function NaturalToDecimal(n: nat): (r: string)
    ensures |r| >= 1 && AllDigits(r)
    ensures r[0] == '0' ==> r == "0"
    decreases n
  {
    if n < 10 then [DigitChar(n)] else NaturalToDecimal(n / 10) + [DigitChar(n % 10)]
  }

  /** Reading the rendered digits back gives the number. */
  lemma {:induction false} DecimalRoundTrip(n: nat)
    ensures DecimalValue(NaturalToDecimal(n)) == n
    decreases n
  {
    if n >= 10 {
      DecimalRoundTrip(n / 10);
      var r := NaturalToDecimal(n);
      assert r[..|r| - 1] == NaturalToDecimal(n / 10);
    }
  }

  /** How JavaScript renders an integer of magnitude below 10^21. */
  function IntToDecimal(n: int): string {
    if n < 0 then "-" + NaturalToDecimal(-n) else NaturalToDecimal(n)
  }
}

=== FILE: validation.dfy ===
/** `Validation.isEmpty` and `Validation.coalesce` (src/core.ts): the single
    emptiness test and the first-non-empty selection through which the
    option precedence of the request builder and the emptiness tests of
    `details` are resolved. */
module Validation {
  import opened Strings
  import opened JsValues

  /** The regular expression `/^\[object\sObject\]$/` (the `\s` admits any
      white space character, not only a blank). */
  predicate IsObjectTag(t: string) {
    |t| == 15 && t[..7] == "[object" && IsSpace(t[7]) && t[8..] == "Object]"
  }

  /** `Array.prototype.some` over booleans. */
  predicate AnyTrue(bs: seq<bool>)
    decreases |bs|
  {
    |bs| > 0 && (bs[0] || AnyTrue(bs[1..]))
  }

  lemma {:induction false} AnyTrueIff(bs: seq<bool>)
    ensures AnyTrue(bs) <==> exists i :: 0 <= i < |bs| && bs[i]
    decreases |bs|
  {
    if |bs| > 0 {
      AnyTrueIff(bs[1..]);
      assert forall i :: 0 <= i < |bs| - 1 ==> bs[1..][i] == bs[i + 1];
    }
  }

  /** `Object.keys(v).length` for an object or array. */
  function KeyCount(v: JsValue): nat
    requires v.Arr? || v.Obj?
  {
    if v.Arr? then |v.items| else |v.keys|
  }

  /** The five tests that `isEmpty` combines with `.some` after its
      `value === null` test, in the order it lists them. */
  function EmptinessTests(v: JsValue): seq<bool> {
    [ v.Undefined?,
      v.Str? && |v.s| == 0,
      v.NaN?,
      v.Arr? && |v.items| == 0,
      (v.Arr? || v.Obj?) && IsObjectTag(ToJsString(v)) && KeyCount(v) == 0 ]
  }

  /** `Validation.isEmpty`. */
  predicate IsEmpty(v: JsValue) {
    v.Null? || AnyTrue(EmptinessTests(v))
  }

  /** What counts as empty, type by type: `null`, `undefined`, `''`, NaN,
      `[]` and a plain object without keys; every boolean and every integer
      (`0` and `false` included) is non-empty. */
  lemma IsEmptyCases(v: JsValue)
    ensures IsEmpty(v) <==>
      match v
      case Undefined => true
      case Null => true
      case Bool(_) => false
      case Num(_) => false
      case NaN => true
      case Str(s) => |s| == 0
      case Arr(items) => |items| == 0
      case Obj(keys, text) => keys == {} && IsObjectTag(text)
  {
    var tests := EmptinessTests(v);
    AnyTrueIff(tests);
    if v.Arr? && |v.items| > 0 {
      assert !tests[4] && !tests[3];
    }
    if v.Obj? {
      assert ToJsString(v) == v.text;
      assert |v.keys| == 0 <==> v.keys == {};
      assert !tests[0] && !tests[1] && !tests[2] && !tests[3];
      assert tests[4] <==> v.keys == {} && IsObjectTag(v.text);
    }
  }

  /** The non-empty arguments, in order (`.filter((value) => !isEmpty(value))`). */
  function NonEmpty(args: seq<JsValue>): (kept: seq<JsValue>)
    ensures |kept| <= |args|
    ensures forall k :: 0 <= k < |kept| ==> !IsEmpty(kept[k])
    decreases |args|
  {
    if |args| == 0 then []
    else (if IsEmpty(args[0]) then [] else [args[0]]) + NonEmpty(args[1..])
  }

  /** `Validation.coalesce`: element 0 of the non-empty arguments, which is
      `undefined` when there is none. A defined result is never empty. */
  function Coalesce(args: seq<JsValue>): (r: JsValue)
    ensures r != Undefined ==> !IsEmpty(r)
  {
    var kept := NonEmpty(args);
    if |kept| == 0 then Undefined else kept[0]
  }

  /** The first non-empty argument is the result, whatever follows it. */
  lemma {:induction false} CoalesceFirstNonEmpty(args: seq<JsValue>, i: nat)
    requires i < |args| && !IsEmpty(args[i])
    requires forall j :: 0 <= j < i ==> IsEmpty(args[j])
    ensures Coalesce(args) == args[i]
    decreases i
  {
    if i > 0 {
      var tail := args[1..];
      assert forall j :: 0 <= j < i - 1 ==> tail[j] == args[j + 1];
      CoalesceFirstNonEmpty(tail, i - 1);
      assert NonEmpty(args) == NonEmpty(tail);
    }
  }

  /** With every argument empty the result is `undefined`. */
  lemma {:induction false} CoalesceAllEmpty(args: seq<JsValue>)
    requires forall j :: 0 <= j < |args| ==> IsEmpty(args[j])
    ensures Coalesce(args) == Undefined
    decreases |args|
  {
    if |args| > 0 {
      var tail := args[1..];
      assert forall j :: 0 <= j < |tail| ==> tail[j] == args[j + 1];
      CoalesceAllEmpty(tail);
      assert NonEmpty(args) == NonEmpty(tail);
    }
  }

  /** The result is empty exactly when every argument is. */
  lemma CoalesceEmptyIff(args: seq<JsValue>)
    ensures IsEmpty(Coalesce(args)) <==> forall j :: 0 <= j < |args| ==> IsEmpty(args[j])
  {
    if forall j :: 0 <= j < |args| ==> IsEmpty(args[j]) {
      CoalesceAllEmpty(args);
    } else {
      var i := FirstNonEmptyIndex(args, 0);
      CoalesceFirstNonEmpty(args, i);
    }
  }

  /** The index of the first non-empty argument at or after `from`, given
      that there is one. */
  function FirstNonEmptyIndex(args: seq<JsValue>, from: nat): (i: nat)
    requires from <= |args|
    requires forall j :: 0 <= j < from ==> IsEmpty(args[j])
    requires exists j :: 0 <= j < |args| && !IsEmpty(args[j])
    ensures i < |args| && !IsEmpty(args[i])
    ensures forall j :: 0 <= j < i ==> IsEmpty(args[j])
    decreases |args| - from
  {
    if !IsEmpty(args[from]) then from else FirstNonEmptyIndex(args, from + 1)
  }

  /** The precedence of the hostname parts (`city`, `baseHost`): a non-empty
      per-call value beats the constructor's value, which beats the built-in
      default. */
  lemma CoalescePrecedence(perCall: JsValue, fromClient: JsValue, fallback: JsValue)
    ensures Coalesce([perCall, fromClient, fallback]) ==
      if !IsEmpty(perCall) then perCall
      else if !IsEmpty(fromClient) then fromClient
      else if !IsEmpty(fallback) then fallback
      else Undefined
  {
    var args := [perCall, fromClient, fallback];
    if !IsEmpty(perCall) {
      CoalesceFirstNonEmpty(args, 0);
    } else if !IsEmpty(fromClient) {
      CoalesceFirstNonEmpty(args, 1);
    } else if !IsEmpty(fallback) {
      CoalesceFirstNonEmpty(args, 2);
    } else {
      CoalesceAllEmpty(args);
    }
  }
}

=== FILE: wrappers.dfy ===
/** Optional values, results with an error, and the last of a sequence of
    overwrites: the wrappers used throughout the model. */
module Wrappers {

  /** A value that may be absent: JavaScript's `undefined` where the source
      leaves a field unset. */
  datatype Option<+T> = None | Some(value: T) {
    function GetOr(default: T): T {
      match this
      case Some(v) => v
      case None => default
    }
  }

  /** The outcome of an operation that may throw. */
  datatype Result<+R, +E> = Success(value: R) | Failure(error: E)

  /** The last element of `s` that `f` maps to `Some`, mapped through `f`:
      the value a loop leaves behind when every matching element overwrites
      the same variable ("last wins"). */
  function LastSome<T, U>(s: seq<T>, f: T -> Option<U>): Option<U>
    decreases |s|
  {
    if |s| == 0 then None
    else if f(s[|s| - 1]).Some? then f(s[|s| - 1])
    else LastSome(s[..|s| - 1], f)
  }

  /** If element `i` matches and no later element does, element `i` wins. */
  lemma {:induction false} LastSomeIsLastMatch<T, U>(s: seq<T>, f: T -> Option<U>, i: nat)
    requires i < |s| && f(s[i]).Some?
    requires forall j :: i < j < |s| ==> f(s[j]).None?
    ensures LastSome(s, f) == f(s[i])
    decreases |s|
  {
    if i < |s| - 1 {
      assert f(s[|s| - 1]).None?;
      var p := s[..|s| - 1];
      assert forall j :: i < j < |p| ==> p[j] == s[j];
      LastSomeIsLastMatch(p, f, i);
    }
  }

  /** With no matching element the result stays unset. */
  lemma {:induction false} LastSomeNoMatch<T, U>(s: seq<T>, f: T -> Option<U>)
    requires forall j :: 0 <= j < |s| ==> f(s[j]).None?
    ensures LastSome(s, f) == None
    decreases |s|
  {
    if |s| > 0 {
      var p := s[..|s| - 1];
      assert forall j :: 0 <= j < |p| ==> p[j] == s[j];
      LastSomeNoMatch(p, f);
    }
  }

  /** Whatever the result is, it came from some element, and no later
      element matched. */
  lemma {:induction false} LastSomeWitness<T, U>(s: seq<T>, f: T -> Option<U>)
    requires LastSome(s, f).Some?
    ensures exists i :: 0 <= i < |s| && f(s[i]) == LastSome(s, f) &&
                        forall j :: i < j < |s| ==> f(s[j]).None?
    decreases |s|
  {
    if f(s[|s| - 1]).None? {
      var p := s[..|s| - 1];
      LastSomeWitness(p, f);
      var i :| 0 <= i < |p| && f(p[i]) == LastSome(p, f) && forall j :: i < j < |p| ==> f(p[j]).None?;
      assert p[i] == s[i];
      assert forall j :: i < j < |p| ==> p[j] == s[j];
    }
  }

  /** One more element: it wins if it matches. */
  lemma LastSomeSnoc<T, U>(s: seq<T>, x: T, f: T -> Option<U>)
    ensures LastSome(s + [x], f) == if f(x).Some? then f(x) else LastSome(s, f)
  {
    assert (s + [x])[..|s|] == s;
  }
}
